=== FILE: README.md ===
# Chat room allocation and bookkeeping, modelled in Dafny

A TCP chat server places each connecting user into a bounded room and routes
private and broadcast messages inside the room. Its code also contains a
fixed-size message ring, which the room code does not use. This project
models the sequential logic under its goroutines and sockets, and proves
properties of it:

- **Message ring** (`MessageRing`, `message_ring.dfy`). A standalone
  structure that no room holds and that broadcasts do not append to. It has a
  fixed number of slots with a wrapping write cursor and a fill count. Reading from a reader's
  cursor returns what was written since. It wraps around the end once the ring
  is full, and panics when the reader is ahead of the writer on a ring that
  has not wrapped.
- **Counted user directory** (`SafeUserMap`, `safe_user_map.dfy`). A map from
  name to user plus a separate counter. Load-or-store and load-and-delete
  change the counter exactly when they change the map.
- **Users and private mailboxes** (`Users`, `user.dfy`). The dispatch loop
  splits a `name#body` envelope on `#`. It resolves the name in the user's
  own directory and delivers the body.
- **Room** (`Chatroom`, `chatroom.dfy`). The capacity-checked join, the
  departure, one read of the connection loop, and the `opcode|field|field`
  record parser. Writes to connections and channels come back as `Action`
  values, next to the room's new state.
- **Room manager** (`ChatroomManager`, `chatroom_manager.dfy`). A state
  machine over the ordered room list, the single ticket and its waiting
  queue. Its steps are: assign a user (random phase, then take the ticket or
  queue); confirm (the ticket holder's ordered scan, release of the ticket,
  resubmission of the queue); leave (departure plus the empty-room watcher);
  and add a room.
- Helpers: `Results` (`Option`/`Result`) and `Text`. `Text` holds Go's
  `strings.Split`/`strings.Join` with a one-character separator and
  `strconv.Atoi`, including its optional sign and its 64-bit range check.

Go panics are explicit `Fail` results. Nothing in the server recovers a
panic, so a `Fail` stands for the whole server process stopping, not just
the goroutine that panicked. Object identity of rooms (Go pointer
comparison in `_deleteChatroom`) is a `handle` drawn from a counter in the
manager. `rand.Intn` is an oracle `draw: nat -> nat`, reduced modulo the
number of rooms.

Behaviour the model keeps as the code has it, which may be surprising:

- After exactly `capacity` appends the cursor is back at 0, so reading from 0
  returns nothing. A reader can never get the oldest message of a full ring,
  because it sits under the cursor.
- `_addChatroom` refuses only when the list is longer than the maximum, so the
  list can hold `maxRooms + 1` rooms.
- The exact scan creates a room but does not put the user in it. The user who
  held the ticket is left in no room.
- `AssignRoomToUser` reports failure whenever the random phase fails.
- Once the list holds the maximum number of rooms, assignment fails fast
  (chatroom_manager.go:143) and the finish listener ignores the result
  (:78). Every user queued at that moment is dropped: it is in no room, does
  not hold the ticket and is no longer queued.
- A quit removes the member from the room but not from the server's
  directory.
- End of stream on a connection drops the member without raising the room's
  signal, so no watcher re-check runs for it.
- A private message to an unknown name is answered with a "does not exist"
  reply when the room parses it. Inside the dispatch loop it only logs, and
  then the loop panics on the nil user.

## Model

| member | source | states |
|---|---|---|
| `MessageRing.NewMsgRing` | server/chatroom/message_store_ring/message_record_ring.go:14-21 | a fresh ring has cursor 0, size 0, one slot per unit of capacity, and satisfies the ring invariant |
| `MessageRing.AddCoverMsg` | server/chatroom/message_store_ring/message_record_ring.go:28-34 | the message lands in the slot under the cursor and no other slot changes; the cursor advances modulo capacity; the size grows by one until it reaches capacity (`MessageRing.IsFull`, size equal to capacity); the invariant (cursor on a slot, size within capacity, cursor equal to size until full) is kept |
| `MessageRing.GetSeqMsg` | server/chatroom/message_store_ring/message_record_ring.go:37-46 | for `0 <= u <= cursor` exactly slots `[u, cursor)`; on a full ring (`MessageRing.IsFull`) with `cursor < u <= capacity`, slots `[u, capacity)` then `[0, cursor)`, of length `capacity - u + cursor`; a reader ahead of the writer on a ring that is not full panics; a negative `u`, or `u` past the capacity, fails the slice bounds check |
| `MessageRing.AddCoverMsgRemembers` | server/chatroom/message_store_ring/message_record_ring.go:28-34 | one append keeps the slots faithful to the log of messages written, extended by that message |
| `MessageRing.BuildRemembers` | server/chatroom/message_store_ring/message_record_ring.go:14-34 | a ring built by appends holds the newest `min(n, capacity)` messages written, each found by stepping back from the cursor |
| `MessageRing.ReadReturnsNewest` | server/chatroom/message_store_ring/message_record_ring.go:37-43 | a read returns the newest messages in write order, as many as lie between the reader and the writer, wrapping on a full ring |
| `MessageRing.ReadAllBeforeFull` | server/chatroom/message_store_ring/message_record_ring.go:28-39 | after fewer than `capacity` appends to a fresh ring, reading from 0 returns all of them in write order |
| `MessageRing.ReadNothingWhenJustFull` | server/chatroom/message_store_ring/message_record_ring.go:28-39 | after exactly `capacity` appends the cursor is 0 and reading from 0 returns nothing |
| `MessageRing.ReadAfterWrap` | server/chatroom/message_store_ring/message_record_ring.go:37-43 | once the ring has wrapped, reading from one past the cursor returns the `capacity - 1` newest messages in order |
| `SafeUserMap.NewSafeUserMap` | server/user/safe_user_map.go:10-13 | the directory starts with no entries and its counter agrees with that |
| `SafeUserMap.GetUser` | server/user/safe_user_map.go:15-26 | returns the stored user exactly when the name is present, and nothing otherwise |
| `SafeUserMap.SetUser` | server/user/safe_user_map.go:28-39 | an absent name is stored, the counter rises by exactly one, and the call returns that user and true; a present name changes neither the map nor the counter, and the call returns the existing user and false; the counter invariant is kept |
| `SafeUserMap.DeleteUser` | server/user/safe_user_map.go:41-52 | a present name is removed, the counter falls by exactly one, and the call returns the removed user; an absent name changes nothing and returns nil; the counter invariant is kept |
| `SafeUserMap.Len` | server/user/safe_user_map.go:54-56 | on a directory whose counter is consistent, the number of names stored |
| `SafeUserMap.LenCountsEntries` | server/user/safe_user_map.go:28-56 | after any sequence of stores and deletes from a consistent directory, `Len` equals the number of names actually stored |
| `SafeUserMap.SetGetDelete` | server/user/safe_user_map_test.go:10-18 | storing a fresh name, reading it and deleting it all see the same user, and the directory ends as it began |
| `Users.DecodeEnvelope` | server/user/user.go:38-40 | with no `#` the envelope panics; otherwise the name is the text before the first `#` and the body is the text from there to the next `#` or the end, and neither contains `#` |
| `Users.DecodeDropsAfterSecondHash` | server/user/user.go:39-40 | text after a second `#` is lost: `name#body#rest` decodes to `(name, body)` |
| `Users.Dispatch` | server/user/user.go:35-46 | the name is looked up in the user's own directory: a present name yields a delivery of the body to that directory entry; an absent name panics on the nil user without any reply |
| `Users.DrainMailbox` | server/user/user.go:34-47 | envelopes are delivered in mailbox order, one delivery each; otherwise the server stops at the first envelope that panics, after delivering every earlier one |
| `Users.MailboxFifo` | server/user/user.go:34-53 | the mailbox is first in, first out: an envelope handed to `PrivateMsgHandler` behind a mailbox that drains cleanly is delivered after all earlier envelopes, in order; if that envelope panics, the earlier ones are delivered and the server stops on it |
| `Text.Split` | server/chatroom/chatroom.go:112 | the pieces contain no separator, there is at least one of them, and joined with the separator they give back the input |
| `Text.SplitJoin` | server/chatroom/chatroom.go:112 | splitting undoes joining when no piece contains the separator |
| `Text.Atoi` | server/chatroom/chatroom.go:119 | a parse succeeds only on an optional `+` or `-` followed by at least one decimal digit and nothing else, with a value within Go's 64-bit range; a leading `-` gives a value of at most zero and anything else a value of at least zero; `Text.AtoiDecimal` and `Text.AtoiNegativeDecimal` show that every in-range decimal is read back |
| `Text.AtoiDecimal` | server/chatroom/chatroom.go:119 | the opcode parser reads back every in-range non-negative number written in decimal |
| `Text.AtoiNegativeDecimal` | server/chatroom/chatroom.go:119 | the opcode parser reads back every in-range negative number written as `-` and its decimal digits |
| `Chatroom.NewChatroom` | server/chatroom/chatroom.go:31-42 | a new room has no members, the standard capacity, and id equal to the given room count plus one |
| `Chatroom.AddUserToRoom` | server/chatroom/chatroom.go:71-82 | the join succeeds exactly when one more member fits, even if the name is already a member; a refusal leaves the room unchanged; a success stores the user under its name; re-adding a present name does not grow the room; the room stays within capacity |
| `Chatroom.TerminalUserConnect` | server/chatroom/chatroom.go:165-171 | exactly the member keyed by the remote address is gone; every other member and every other field of the room is unchanged |
| `Chatroom.ParseMsg` | server/chatroom/chatroom.go:104-163 | the fields are the record split on `\|` (`Text.Split`) and the opcode is `Text.Atoi` of the first; more than three fields, or a non-integer opcode, earns the format reply and no change; an integer opcode outside 0-4 earns the usage text and no change; only a quit changes the room and raises the signal, and it removes exactly the sender's address, which must be a member |
| `Chatroom.MsgHandleStep` | server/chatroom/chatroom.go:85-102 | a read error ends the loop without change; an empty read or end of stream drops the sender without a signal; otherwise the read minus its last character goes to the parser; the room stays within capacity |
| `Chatroom.HandleEncodedLine` | server/chatroom/chatroom.go:85-157 | one read carrying a client's encoded command and its line terminator has exactly the effect the protocol promises for that command |
| `Chatroom.ListingLines` | server/chatroom/chatroom.go:150-155 | a member listing puts each name, in enumeration order, on its own newline-terminated line and adds nothing else |
| `Chatroom.ListingShowsEveryMember` | server/chatroom/chatroom.go:150-155 | a listing request returns the room's member names, and for any enumeration of them without repeats the listing text has one line per member, each member exactly once, and no other text |
| `Chatroom.ParseEncoded` | server/chatroom/chatroom.go:128-157 | for every command a client encodes, the parser's effect matches an independent statement of the protocol: private message to a member or the "does not exist" reply, broadcast of the body and a newline, member listing, who-am-I, and quit |
| `Chatroom.BroadcastDropsSeparators` | server/chatroom/chatroom.go:147-149 | a broadcast joins its later fields with `Text.Join` and the empty separator (chatroom.go:148), so the `\|` between them is lost: `1\|a\|b` broadcasts `ab` and a newline |
| `Chatroom.PrivateWithoutTarget` | server/chatroom/chatroom.go:138-139 | the record `0` has no target field and panics |
| `Chatroom.NegativeOpcodeGetsUsage` | server/chatroom/chatroom.go:118-160 | a negative opcode such as `-1` parses as an integer but names no operation, so it earns the usage text and changes nothing |
| `Chatroom.PrivateWithoutBody` | server/chatroom/chatroom.go:138-146 | the body is `Text.Join` of the fields after the target with no separator (chatroom.go:139), so the record `0\|t` sends `t` an empty body when `t` is a member, and earns the "does not exist" reply otherwise |
| `Chatroom.BroadcastWithoutBody` | server/chatroom/chatroom.go:147-149 | the record `1` broadcasts a bare newline |
| `Chatroom.EnvelopeRoundTrip` | server/chatroom/chatroom.go:145 | the envelope built for the target decodes back to the target name and the body with its newline, when neither contains `#` |
| `Chatroom.PrivateMessageEndToEnd` | server/user/user.go:39-45 | the room hands the envelope to the target member; that member's dispatch loop then delivers the body to the directory's entry for the name, or panics if the directory lacks the name |
| `ChatroomManager.NewChatroomManager` | server/chatroom_manager/chatroom_manager.go:38-58 | a new manager holds one empty room with id 1, the ticket is free and nobody waits |
| `ChatroomManager.AddChatroom` | server/chatroom_manager/chatroom_manager.go:114-128 | the room is appended exactly when the list is no longer than the maximum; earlier rooms keep their order; a list within `max + 1` stays within it |
| `ChatroomManager.IndexOfHandle` | server/chatroom_manager/chatroom_manager.go:104-105 | finds the first room that is the given object, or reports that none is |
| `ChatroomManager.DeleteChatroom` | server/chatroom_manager/chatroom_manager.go:102-112 | cuts out only the first room that is the target and keeps the others in order; an absent target leaves the list unchanged |
| `ChatroomManager.Sample` | server/chatroom_manager/chatroom_manager.go:199-215 | succeeds exactly when one of the bounded draws hits a room with space, and returns the room of the first such draw with the user added to it and nothing else changed; on failure every draw hit a full room (or there was no room) |
| `ChatroomManager.SampleAsWritten` | server/chatroom_manager/chatroom_manager.go:201-204 | with an empty room list the first draw panics; otherwise it behaves as `Sample` |
| `ChatroomManager.TryGetMutexSign` | server/chatroom_manager/chatroom_manager.go:157-170 | a free ticket is taken by the caller; a held ticket stays with its holder, and the caller's user joins the back of the queue; the rooms are untouched |
| `ChatroomManager.AssignRoomToUser` | server/chatroom_manager/chatroom_manager.go:140-155 | fails fast without change once the list holds the maximum; succeeds exactly when sampling succeeds, returning the room that took the user; on failure no room gained the user and the user went to the ticket logic; never creates or removes rooms; keeps the manager invariant |
| `ChatroomManager.FirstAccepting` | server/chatroom_manager/chatroom_manager.go:179-185 | finds the first room in list order with space, or reports that every room is full |
| `ChatroomManager.ActualConfirmation` | server/chatroom_manager/chatroom_manager.go:172-189 | places the user in the first room in list order that accepts, and no other room changes; if none accepts, exactly one new empty room is appended through the room bound, and the user is not in it |
| `ChatroomManager.Resubmit` | server/chatroom_manager/chatroom_manager.go:73-82 | queued users go back through assignment once each, in order (the partner lemmas `ChatroomManager.ResubmitKeepsEveryone`, `ChatroomManager.ResubmitWhenAllFull` and `ChatroomManager.ResubmitAtMaximum` say where each one ends up); no room is created or removed; a ticket that stays held keeps its holder and its queue grows only at the back; a new holder or queued user comes from the resubmitted queue; the queue grows by at most the users resubmitted, and by strictly fewer when the ticket starts free |
| `ChatroomManager.Confirm` | server/chatroom_manager/chatroom_manager.go:176-197 | runs the holder's scan, frees the ticket and serves the queue once (`ChatroomManager.ConfirmServesQueue` says where each queued user ends up); with an empty queue the ticket ends free and the rooms are exactly the scan's; any later holder or waiter was already queued; a non-empty queue is strictly shorter afterwards; the manager invariant is kept |
| `ChatroomManager.AssignKeepsSeats` | server/chatroom_manager/chatroom_manager.go:140-155 | assignment never removes a name from a room, and a successful one seats the user |
| `ChatroomManager.ResubmitKeepsSeats` | server/chatroom_manager/chatroom_manager.go:77-79 | resubmitting the queue never removes a name from a room |
| `ChatroomManager.ResubmitKeepsEveryone` | server/chatroom_manager/chatroom_manager.go:77-79 | below the room maximum no resubmitted user is lost: each one ends up seated in some room, holding the ticket, or queued again |
| `ChatroomManager.ResubmitWhenAllFull` | server/chatroom_manager/chatroom_manager.go:77-79 | with the ticket held, below the maximum, and no room with space, every resubmitted user goes back to the end of the queue in queue order, and nothing else changes |
| `ChatroomManager.RefusedEverywhere` | server/chatroom_manager/chatroom_manager.go:140-170 | with the ticket held, below the maximum, and no room with space, assignment puts the user at the end of the queue and changes nothing else |
| `ChatroomManager.ResubmitAtMaximum` | server/chatroom_manager/chatroom_manager.go:143-146 | at the room maximum every resubmitted user fails fast and the listener ignores the result, so the whole queue is dropped and nothing else changes |
| `ChatroomManager.ConfirmServesQueue` | server/chatroom_manager/chatroom_manager.go:176-197 | a holder the scan seats is still seated after the queue is served; when the scan leaves the list below the maximum, every queued user ends up seated, holding the ticket, or queued again; when it reaches the maximum, the queue is dropped and the ticket is free |
| `ChatroomManager.FinishAsWritten` | server/chatroom_manager/chatroom_manager.go:67-82 | the holder's scan runs and the ticket comes back while the queue is left as it is; the listener drains from then on; a finish signal sent after the first blocks its goroutine for good |
| `ChatroomManager.RetryAsWritten` | server/chatroom_manager/chatroom_manager.go:77-79 | once the listener drains, the oldest queued user can be taken out at any moment, whatever the ticket, and leaves the queue or goes back to its end; if a draw places it, it is in that room and out of the queue; if the ticket is held and every draw is refused, it goes back to the end of the queue and nothing else changes; the queue never grows and a held ticket keeps its holder |
| `ChatroomManager.FinishListenerSpins` | server/chatroom_manager/chatroom_manager.go:73-82 | with the ticket held and every room full, a retry takes the queued user out and puts it back, leaving the state exactly as it was, so the retry repeats without end; the next finish signal blocks its sender for good |
| `ChatroomManager.PerCheckDeleteChatroom` | server/chatroom_manager/chatroom_manager.go:217-235 | on the signal, deletion is requested only if the room has no members at that moment |
| `ChatroomManager.Leave` | server/chatroom_manager/chatroom_manager.go:226-229 | the departing member is dropped from its room; the room is then removed from the list exactly when it is now empty; every other room stays, in order |
| `ChatroomManager.AddChatroomStep` | server/chatroom_manager/chatroom_manager.go:130-133 | a fresh empty room is appended unless the list is over the maximum; existing rooms keep their order; the manager invariant is kept |
| `ChatroomManager.RoomListReachesMaxPlusOne` | server/chatroom_manager/chatroom_manager.go:119-123 | a manager that satisfies the invariant can hold `maxRooms + 1` rooms |
| `ChatroomManager.FullManagerFailsFast` | server/chatroom_manager/chatroom_manager.go:143-146 | with the maximum number of rooms or more, assignment returns failure and changes nothing |
| `ChatroomManager.ThirdUserGetsNewRoomButNoSeat` | server/chatroom_manager/chatroom_manager.go:176-189 | in a room of capacity two holding two members, a third user fails sampling and takes the ticket; the scan appends one new empty room and places the user nowhere |
| `ChatroomManager.EveryRoomDeletedPanics` | server/chatroom_manager/chatroom_manager.go:204 | once the only user of a new manager quits, the watcher empties the room list, and the next arrival's first draw panics |
| `ChatroomManager.EmptyManagerScansInstead` | server/chatroom_manager/chatroom_manager.go:201-215 | treating an empty list as a failed random phase sends the arrival to the ticket, and its scan creates a room |

## Findings

| source | as written | input that shows it | evidently intended | confidence | as-written member | corrected member |
|---|---|---|---|---|---|---|
| server/chatroom_manager/chatroom_manager.go:204 | `rand.Intn(len(cm.IChatrooms))` runs even when the room list is empty, and `rand.Intn(0)` panics | a new manager; its one user joins and then quits; the watcher deletes the now-empty room; the next user arrives | an empty list is a failed random phase, so the exact scan runs and creates a room | medium, not executed; the quit that empties the room needs `MsgHandle` running, and its only call site is commented out at server/server/server.go:137; the Go code also does not compile as shown | `ChatroomManager.EveryRoomDeletedPanics` | `ChatroomManager.EmptyManagerScansInstead` |
| server/chatroom_manager/chatroom_manager.go:73-82 | `for u := range cm.blockAndStoreChannel` ends only when the channel is closed, and nothing closes it. After the first finish signal, the listener never reads `finishConfirmChannel` again and keeps taking queued users out and re-assigning them at once | a user is queued while another holds the ticket and every room is full, after an earlier scan has finished: it is taken out, refused, and put back, without end; the next finish signal blocks its goroutine for good | each finish hands the users queued so far back to assignment once, and the listener then waits for the next finish | medium, not executed | `ChatroomManager.FinishListenerSpins` | `ChatroomManager.Confirm` |

The rest of the manager model uses the corrected `ChatroomManager.Sample`
and the once-per-finish `ChatroomManager.Confirm`.

## Left out

- Goroutines and channels are left out: broadcast fan-out (`listenAndSendBroadMsg` with its ten write retries and sleeps), `sendMutexChannelSign`, `sendFinishConfirmChannel`, the add/delete request channel, the per-second logger and the watcher's sleep. Only their sequential effect is kept, as the state-machine steps above.
- All connection I/O is left out: reads, writes, `Close`, the accept loops and the helpers in `utils/`. Replies are `Action` values. The literal reply texts and the usage text are not reproduced.
- Randomness is replaced by the `draw` oracle.
- The capacity of the waiting queue (`BlockBufferChannelSize`) is left out. In the Go code, a send to a full queue blocks; the model's queue is unbounded.
- The private mailbox is an unbuffered channel (server/user/user.go:26), so `PrivateMsgHandler` blocks the sending room's read loop until the recipient's dispatch loop takes the envelope. The model's mailbox is an unbounded sequence and never blocks.
- The 512-byte read buffer is left out. Each read is one chunk of any length, so a record longer than one read is not split across reads.
- `SafeUserMap.Range` is left out, because no modelled operation uses it.
- The fields of `User` that hold the connection, the channel and the directory pointer are left out. The directory a user resolves names in is passed to `Users.Dispatch` explicitly.
- Type-assertion panics on `interface{}`/`IChatroom` are left out, because the model's types rule them out.
- A room that is no longer in the list but still has a member is not modelled. `ChatroomManager.Leave` on such a handle does nothing.
- The superseded server draft, the MongoDB-backed server wiring, entry points and the load-test client are left out, because they are not part of the allocator or the room.
- `ChatroomManager.NewChatroomManager`: takes the room maximum as a parameter. The Go code always uses `ChatroomMaxCapacity`, so the scenarios can use a small maximum.
- `Chatroom.NewChatroom`: is called with the current room count and a fresh handle. In the Go code, two call sites pass no argument.
- `Chatroom.ParseMsg`: the member listing is returned as the set of member names. The text is `Chatroom.ListingText` of whatever order Go's map iteration produces.
- `ChatroomManager.Resubmit`: does not state which room a resubmitted user is placed in, or whether it is placed rather than queued again. That depends on the draws. Whether it is kept at all does not: below the maximum every one is kept (`ChatroomManager.ResubmitKeepsEveryone`), and at the maximum every one is dropped (`ChatroomManager.ResubmitAtMaximum`).
- `ChatroomManager.Resubmit`: models the once-per-finish drain that the Go code evidently intends. The `range` in `listenFinishConfirm` never ends, so the later `sendFinishConfirmChannel` goroutines block forever and queued users are retried at any moment. That behaviour is modelled separately by `ChatroomManager.FinishAsWritten` and `ChatroomManager.RetryAsWritten` (see "## Findings"); the goroutine scheduling that interleaves those retries with other steps is not modelled.
- `ChatroomManager.AssignRoomToUser`: calls the corrected `ChatroomManager.Sample`, so an empty room list goes to the ticket instead of panicking in `rand.Intn(0)` (see "## Findings").
- `Chatroom.MsgHandleStep`: strings are sequences of characters, while Go's `string(readBytes[0:n-1])` drops the last byte. On a record whose last character takes several bytes in UTF-8, Go leaves a broken partial character at the end of the last field; the model removes the whole character.
- `MessageRing.NewMsgRing`: takes the capacity as a parameter. The ring's package-level capacity constant is not part of this model.
- `MessageRing.GetSeqMsg`: returns an immutable sequence. In Go the result of the plain read is a slice of the ring's own array (message_record_ring.go:39), and so is the wrapped read's `append` when the cursor is 0 (:42). A later `AddCoverMsg` then changes a result the caller already holds, and an `append` by the caller writes into ring slots. The model does not represent this sharing.
- `SafeUserMap.NewSafeUserMap`: the Go constructor is called (server/server/server.go:34, server/user/safe_user_map_test.go:9) but its definition is not part of this model. The model's constructor is the evident one: an empty map with the counter at zero.

=== FILE: chatroom.dfy ===
/** A chat room (`Chatroom`): a capacity-bounded map of members, the join that
    respects the bound, the departure that raises the room's signal, and the
    per-connection record parser that turns one `opcode|field|field` line
    into one effect. Writes to connections and channels become returned
    `Action`s; the room's new state is returned alongside. */
module Chatroom {
  import opened Results
  import Text
  import SafeUserMap
  import opened Users

  /** Largest number of members of one room. */
  const UsersMaxCapacity: nat := 100

  /** Opcodes of the wire protocol, in declaration order. */
  const PrivateChatOption := 0
  const BroadOption := 1
  const ShowAllOnlineUsersOption := 2
  const MyNameOption := 3
  const QuitOption := 4

  /** Most `|`-separated fields a record may have. */
  const FormatN := 3

  /** `handle` stands for the room's identity as a Go pointer; `id` is the
      number the room reports in its messages. */
  datatype Room = Room(handle: nat, id: int, members: map<string, User>, capacity: nat)

  /** A room never holds more members than its capacity. */
  predicate Valid(room: Room) {
    |room.members| <= room.capacity
  }

  /** `NewChatroom(curChatroomCnt)`: an empty room numbered one past the
      current number of rooms. */
  function NewChatroom(handle: nat, curChatroomCnt: int): (room: Room)
    ensures room.handle == handle && room.id == curChatroomCnt + 1
    ensures room.members == map[] && room.capacity == UsersMaxCapacity
    ensures Valid(room)
  {
    Room(handle, curChatroomCnt + 1, map[], UsersMaxCapacity)
  }

  /** The capacity test of `AddUserToRoom`: one more member must still fit,
      whether or not the name is already a member. */
  predicate Accepts(room: Room) {
    !(|room.members| + 1 > room.capacity)
  }

  datatype Joined = Joined(room: Room, ok: bool)

  /** `AddUserToRoom`: refuse without change when the room is full, otherwise
      store the user under its name (overwriting a member of the same name). */
  function AddUserToRoom(room: Room, user: User): (r: Joined)
    ensures r.ok <==> |room.members| < room.capacity
    ensures !r.ok ==> r.room == room
    ensures r.ok ==> r.room == room.(members := room.members[user.name := user])
    ensures r.ok && user.name in room.members ==> |r.room.members| == |room.members|
    ensures Valid(room) ==> Valid(r.room)
  {
    if !Accepts(room) then Joined(room, false)
    else Joined(room.(members := room.members[user.name := user]), true)
  }

  /** `TerminalUserConnect`: drop exactly the member keyed by the remote
      address. (The room's signal is raised unconditionally afterwards; see
      `Step.signal`.) */
  function TerminalUserConnect(room: Room, addr: string): (r: Room)
    ensures addr !in r.members
    ensures forall k :: k in room.members && k != addr ==> k in r.members && r.members[k] == room.members[k]
    ensures r.members.Keys <= room.members.Keys
    ensures r.(members := room.members) == room
    ensures Valid(room) ==> Valid(r)
  {
    room.(members := room.members - {addr})
  }

  /** What handling one record writes to whom. */
  datatype Action =
    | FormatHelp                                  // format complaint plus usage text, to the sender
    | Introduce                                   // usage text alone, to the sender
    | NoSuchTarget(target: string)                // "does not exist" reply, to the sender
    | Private(recipient: User, envelope: string)  // envelope into the recipient's mailbox
    | Broadcast(body: string)                     // body onto the room's broadcast channel
    | Listing(names: set<string>)                 // every member name, one per line, to the sender
    | NameReply(addr: string)                     // the sender's remote address, to the sender
    | Bye(name: string)                           // farewell to the sender, who leaves the room
    | Disconnected                                // end of stream: the sender is dropped silently
    | ReadFailed                                  // read error: the loop ends

  /** The room after one record, what was written, and whether the room's
      "someone left" signal was raised. */
  datatype Step = Step(room: Room, action: Action, signal: bool)

  /** How handling a record panics: opcode 0 with no target field, or a quit
      from an address that is not a member. Nothing recovers these panics, so
      a `Fail` means the whole server process stops. */
  datatype ParsePanic = MissingField | MissingMember

  /** The private-message envelope built for the recipient's mailbox. */
  function Envelope(target: string, body: string): string {
    target + "#" + body + "\n"
  }

  /** `parseMsg`: split on `|`; more than three fields or a non-integer opcode
      earn the format complaint, an unknown integer opcode the usage text, and
      the five opcodes their effect. Only a quit changes the room. */
  function ParseMsg(room: Room, record: string, addr: string): (r: Result<Step, ParsePanic>)
    ensures r.Ok? ==> (r.value.signal <==> r.value.action.Bye?)
    ensures r.Ok? && !r.value.action.Bye? ==> r.value.room == room
    ensures r.Ok? && r.value.action.Bye? ==>
              && addr in room.members
              && r.value.action.name == room.members[addr].name
              && r.value.room == TerminalUserConnect(room, addr)
    ensures r == Fail(MissingMember) ==> addr !in room.members
    ensures |Text.Split(record, '|')| > FormatN ==> r == Ok(Step(room, FormatHelp, false))
    ensures |Text.Split(record, '|')| <= FormatN && Text.Atoi(Text.Split(record, '|')[0]).None? ==>
              r == Ok(Step(room, FormatHelp, false))
    ensures |Text.Split(record, '|')| <= FormatN && Text.Atoi(Text.Split(record, '|')[0]).Some? &&
            !(0 <= Text.Atoi(Text.Split(record, '|')[0]).value <= 4) ==>
              r == Ok(Step(room, Introduce, false))
    ensures Valid(room) && r.Ok? ==> Valid(r.value.room)
  {
    var fields := Text.Split(record, '|');
    if |fields| > FormatN then Ok(Step(room, FormatHelp, false))
    else
      match Text.Atoi(fields[0])
      case None => Ok(Step(room, FormatHelp, false))
      case Some(op) =>
        if op == QuitOption then
          if addr !in room.members then Fail(MissingMember)
          else Ok(Step(TerminalUserConnect(room, addr), Bye(room.members[addr].name), true))
        else if op == PrivateChatOption then
          if |fields| < 2 then Fail(MissingField)
          else
            var target := fields[1];
            var body := Text.Join(fields[2..], "");
            if target !in room.members then Ok(Step(room, NoSuchTarget(target), false))
            else Ok(Step(room, Private(room.members[target], Envelope(target, body)), false))
        else if op == BroadOption then
          Ok(Step(room, Broadcast(Text.Join(fields[1..], "") + "\n"), false))
        else if op == ShowAllOnlineUsersOption then
          Ok(Step(room, Listing(room.members.Keys), false))
        else if op == MyNameOption then
          Ok(Step(room, NameReply(addr), false))
        else
          Ok(Step(room, Introduce, false))
  }

  /** Outcome of one `Read` on the connection. */
  datatype ReadStatus = ReadOk | ReadEof | ReadError

  /** One turn of `MsgHandle`: a read error ends the loop, an empty read or end
      of stream drops the member keyed by the remote address without raising
      the signal, and otherwise the bytes read minus the last one (the line
      terminator) go to the parser. */
  function MsgHandleStep(room: Room, chunk: string, status: ReadStatus, addr: string): (r: Result<Step, ParsePanic>)
    ensures status == ReadError ==> r == Ok(Step(room, ReadFailed, false))
    ensures status != ReadError && (|chunk| == 0 || status == ReadEof) ==>
              r == Ok(Step(TerminalUserConnect(room, addr), Disconnected, false))
    ensures status == ReadOk && |chunk| > 0 ==>
              r == ParseMsg(room, chunk[..|chunk| - 1], addr)
    ensures Valid(room) && r.Ok? ==> Valid(r.value.room)
  {
    if status == ReadError then Ok(Step(room, ReadFailed, false))
    else if |chunk| == 0 || status == ReadEof then
      Ok(Step(room.(members := room.members - {addr}), Disconnected, false))
    else ParseMsg(room, chunk[..|chunk| - 1], addr)
  }

  /** The text of a member listing written in a given enumeration order. */
  function ListingText(order: seq<string>): string
    decreases |order|
  {
    if |order| == 0 then "" else order[0] + "\n" + ListingText(order[1..])
  }

  /** A listing puts every name on its own line and nothing else: split at
      newlines it gives back the enumeration, plus the empty tail. */
  lemma {:induction false} ListingLines(order: seq<string>)
    requires forall i :: 0 <= i < |order| ==> '\n' !in order[i]
    ensures Text.Split(ListingText(order), '\n') == order + [""]
    decreases |order|
  {
    if |order| == 0 {
      Text.SplitWithoutSeparator("", '\n');
    } else {
      ListingLines(order[1..]);
      Text.SplitAtFirst(order[0], '\n', ListingText(order[1..]));
      assert order[0] + "\n" + ListingText(order[1..]) == order[0] + ['\n'] + ListingText(order[1..]);
      assert [order[0]] + (order[1..] + [""]) == order + [""];
    }
  }

  /** A listing request, read against any enumeration of the member names
      without repeats: every member appears on exactly one line, no other
      line carries text, and the text ends with a newline. */
  lemma ListingShowsEveryMember(room: Room, addr: string, order: seq<string>)
    requires forall i :: 0 <= i < |order| ==> order[i] in room.members
    requires forall k :: k in room.members ==> k in order
    requires forall i, j :: 0 <= i < j < |order| ==> order[i] != order[j]
    requires forall k :: k in room.members ==> '\n' !in k
    ensures var r := ParseMsg(room, Encode(ListCmd), addr);
            && r == Ok(Step(room, Listing(room.members.Keys), false))
            && var lines := Text.Split(ListingText(order), '\n');
            && |lines| == |order| + 1
            && lines[|order|] == ""
            && (forall name :: name in room.members.Keys <==> name in lines[..|order|])
            && (forall i, j :: 0 <= i < j < |order| ==> lines[i] != lines[j])
  {
    ParseEncoded(room, ListCmd, addr);
    ListingLines(order);
    assert Text.Split(ListingText(order), '\n')[..|order|] == order;
  }

  // ------------------------------------------------------- a client's view

  /** What a well-behaved client sends. */
  datatype Command =
    | PrivateCmd(target: string, body: string)
    | BroadcastCmd(body: string)
    | ListCmd
    | WhoAmICmd
    | QuitCmd

  /** The record a client writes for a command (before its line terminator). */
  function Encode(cmd: Command): string {
    match cmd
    case PrivateCmd(target, body) => Text.Join([Text.Decimal(PrivateChatOption), target, body], "|")
    case BroadcastCmd(body) => Text.Join([Text.Decimal(BroadOption), body], "|")
    case ListCmd => Text.Decimal(ShowAllOnlineUsersOption)
    case WhoAmICmd => Text.Decimal(MyNameOption)
    case QuitCmd => Text.Decimal(QuitOption)
  }

  /** A command's text fields contain no field separator. */
  predicate PipeFree(cmd: Command) {
    match cmd
    case PrivateCmd(target, body) => '|' !in target && '|' !in body
    case BroadcastCmd(body) => '|' !in body
    case _ => true
  }

  /** What the protocol promises each command does, stated independently of
      the parser. */
  function Intended(room: Room, cmd: Command, addr: string): Result<Step, ParsePanic> {
    match cmd
    case PrivateCmd(target, body) =>
      if target in room.members
      then Ok(Step(room, Private(room.members[target], Envelope(target, body)), false))
      else Ok(Step(room, NoSuchTarget(target), false))
    case BroadcastCmd(body) => Ok(Step(room, Broadcast(body + "\n"), false))
    case ListCmd => Ok(Step(room, Listing(room.members.Keys), false))
    case WhoAmICmd => Ok(Step(room, NameReply(addr), false))
    case QuitCmd =>
      if addr in room.members
      then Ok(Step(room.(members := room.members - {addr}), Bye(room.members[addr].name), true))
      else Fail(MissingMember)
  }

  lemma OpcodeFields(op: nat, rest: seq<string>)
    requires op <= 4 && |rest| <= 2
    requires forall i :: 0 <= i < |rest| ==> '|' !in rest[i]
    ensures var fields := Text.Split(Text.Join([Text.Decimal(op)] + rest, "|"), '|');
            fields == [Text.Decimal(op)] + rest && Text.Atoi(fields[0]) == Some(op)
  {
    var parts := [Text.Decimal(op)] + rest;
    assert Text.Decimal(op) == [('0' as int + op) as char];
    Text.SplitJoin(parts, '|');
    Text.AtoiDecimal(op);
  }

  /** The parser does what the protocol promises for every encoded command. */
  lemma ParseEncoded(room: Room, cmd: Command, addr: string)
    requires PipeFree(cmd)
    ensures ParseMsg(room, Encode(cmd), addr) == Intended(room, cmd, addr)
  {
    match cmd
    case PrivateCmd(target, body) => ParseEncodedPrivate(room, target, body, addr);
    case BroadcastCmd(body) => ParseEncodedBroadcast(room, body, addr);
    case _ => ParseEncodedBare(room, cmd, addr);
  }

  lemma ParseEncodedPrivate(room: Room, target: string, body: string, addr: string)
    requires '|' !in target && '|' !in body
    ensures ParseMsg(room, Encode(PrivateCmd(target, body)), addr) == Intended(room, PrivateCmd(target, body), addr)
  {
    OpcodeFields(PrivateChatOption, [target, body]);
    assert [Text.Decimal(PrivateChatOption)] + [target, body] == [Text.Decimal(PrivateChatOption), target, body];
  }

  lemma ParseEncodedBroadcast(room: Room, body: string, addr: string)
    requires '|' !in body
    ensures ParseMsg(room, Encode(BroadcastCmd(body)), addr) == Intended(room, BroadcastCmd(body), addr)
  {
    OpcodeFields(BroadOption, [body]);
    assert [Text.Decimal(BroadOption)] + [body] == [Text.Decimal(BroadOption), body];
  }

  /** The commands that are a bare opcode. */
  lemma ParseEncodedBare(room: Room, cmd: Command, addr: string)
    requires cmd.ListCmd? || cmd.WhoAmICmd? || cmd.QuitCmd?
    ensures ParseMsg(room, Encode(cmd), addr) == Intended(room, cmd, addr)
  {
    var op := if cmd.ListCmd? then ShowAllOnlineUsersOption
              else if cmd.WhoAmICmd? then MyNameOption
              else QuitOption;
    assert Encode(cmd) == Text.Decimal(op);
    OpcodeFields(op, []);
    assert [Text.Decimal(op)] + [] == [Text.Decimal(op)];
  }

  /** One read carrying an encoded command and its line terminator has the
      effect the protocol promises for that command. */
  lemma HandleEncodedLine(room: Room, cmd: Command, addr: string)
    requires PipeFree(cmd)
    ensures MsgHandleStep(room, Encode(cmd) + "\n", ReadOk, addr) == Intended(room, cmd, addr)
  {
    ParseEncoded(room, cmd, addr);
    assert (Encode(cmd) + "\n")[..|Encode(cmd)|] == Encode(cmd);
  }

  /** A broadcast record's later fields are glued together with no separator:
      `1|a|b` broadcasts `ab` and a newline. */
  lemma BroadcastDropsSeparators(room: Room, a: string, b: string, addr: string)
    requires '|' !in a && '|' !in b
    ensures ParseMsg(room, "1|" + a + "|" + b, addr) == Ok(Step(room, Broadcast(a + b + "\n"), false))
  {
    var fields := [Text.Decimal(BroadOption), a, b];
    OpcodeFields(BroadOption, [a, b]);
    assert [Text.Decimal(BroadOption)] + [a, b] == fields;
    JoinTwoFields(fields, a, b);
  }

  lemma JoinTwoFields(fields: seq<string>, a: string, b: string)
    requires fields == ["1", a, b]
    ensures Text.Join(fields, "|") == "1|" + a + "|" + b
    ensures Text.Join(fields[1..], "") == a + b
  {
    assert Text.Join(fields[1..], "|") == a + "|" + Text.Join([b], "|");
  }

  /** A private record with no body field: `0|t` sends `t` an empty body. */
  lemma PrivateWithoutBody(room: Room, target: string, addr: string)
    requires '|' !in target
    ensures ParseMsg(room, "0|" + target, addr) == Intended(room, PrivateCmd(target, ""), addr)
  {
    OpcodeFields(PrivateChatOption, [target]);
    assert [Text.Decimal(PrivateChatOption)] + [target] == ["0", target];
    assert Text.Join(["0", target], "|") == "0|" + target;
    assert Text.Join(["0", target][2..], "") == "";
  }

  /** A broadcast record with no body field: `1` broadcasts a bare newline. */
  lemma BroadcastWithoutBody(room: Room, addr: string)
    ensures ParseMsg(room, "1", addr) == Ok(Step(room, Broadcast("\n"), false))
  {
    OpcodeFields(BroadOption, []);
    assert [Text.Decimal(BroadOption)] + [] == ["1"];
    assert Text.Join(["1"], "|") == "1";
    assert Text.Join(["1"][1..], "") + "\n" == "\n";
  }

  /** A negative opcode parses as an integer but names no operation, so it
      earns the usage text: `-1` is answered like any unknown opcode. */
  lemma NegativeOpcodeGetsUsage(room: Room, n: nat, addr: string)
    requires 0 < n <= -Text.MinInt64
    ensures ParseMsg(room, "-" + Text.Decimal(n), addr) == Ok(Step(room, Introduce, false))
  {
    var record := "-" + Text.Decimal(n);
    Text.AtoiNegativeDecimal(n);
    Text.DecimalDigits(n);
    assert forall i :: 0 <= i < |record| ==> record[i] == '-' || Text.IsDigit(record[i]);
    Text.SplitWithoutSeparator(record, '|');
  }

  /** The record `0` has no target field: indexing it panics. */
  lemma PrivateWithoutTarget(room: Room, addr: string)
    ensures ParseMsg(room, "0", addr) == Fail(MissingField)
  {
  }

  /** The recipient's dispatch loop decodes the room's envelope back into the
      target name and the body with its newline. */
  lemma EnvelopeRoundTrip(target: string, body: string)
    requires '#' !in target && '#' !in body
    ensures DecodeEnvelope(Envelope(target, body)) == Ok((target, body + "\n"))
  {
    Text.SplitAtFirst(target, '#', body + "\n");
    Text.SplitWithoutSeparator(body + "\n", '#');
    assert Envelope(target, body) == target + ['#'] + (body + "\n");
  }

  /** A private message end to end: the room hands the envelope to the target
      member, whose dispatch loop then resolves the name in its own directory,
      not in the room; a name the directory lacks stops the server. */
  lemma PrivateMessageEndToEnd(room: Room, dir: Directory, target: string, body: string, addr: string)
    requires '|' !in target && '|' !in body && '#' !in target && '#' !in body
    requires target in room.members
    ensures var r := ParseMsg(room, Encode(PrivateCmd(target, body)), addr);
            && r.Ok? && r.value.action.Private?
            && r.value.action.recipient == room.members[target]
            && (target in dir.entries ==>
                  Dispatch(dir, r.value.action.envelope) == Ok(Delivery(dir.entries[target], body + "\n")))
            && (target !in dir.entries ==>
                  Dispatch(dir, r.value.action.envelope) == Fail(NilDereference))
  {
    ParseEncoded(room, PrivateCmd(target, body), addr);
    EnvelopeRoundTrip(target, body);
  }
}

=== FILE: chatroom_manager.dfy ===
/** The room allocator (`ChatroomManager`) as a sequential state machine. A
    user is first offered to rooms drawn at random (a bounded number of
    times); when that fails, one caller at a time holds a ticket and scans
    every room in order, appending a new room when all are full, while other
    callers park their users in a waiting queue that is resubmitted when the
    ticket comes back. Goroutines and channels become explicit steps:
    `AssignRoomToUser` (which may take the ticket or queue the user),
    `Confirm` (the ticket holder's scan, the release of the ticket and the
    resubmission of the queue), `Leave` (a member's departure followed by the
    empty-room watcher) and `AddChatroomStep`. `rand.Intn` is an oracle
    `draw` from attempt number to a raw index. `Confirm` serves the queue
    once per finish, as the Go code evidently intends; its never-ending
    listener loop as written is `FinishAsWritten` and `RetryAsWritten`. */
module ChatroomManager {
  import opened Results
  import opened Users
  import opened Chatroom

  /** Most rooms one manager is meant to hold. */
  const ChatroomMaxCapacity: nat := 100
  /** Random draws tried before falling back to the exact scan. */
  const MaxNumberOfRetries: nat := 100

  /** `holder` is the ticket: `None` while it is free, the user whose scan is
      pending while it is held. */
  datatype Manager = Manager(
    rooms: seq<Room>,
    maxRooms: nat,
    holder: Option<User>,
    waiting: seq<User>,
    nextHandle: nat)

  predicate RoomsValid(rooms: seq<Room>) {
    forall i :: 0 <= i < |rooms| ==> Chatroom.Valid(rooms[i])
  }

  predicate HandlesDistinct(rooms: seq<Room>) {
    forall i, j :: 0 <= i < j < |rooms| ==> rooms[i].handle != rooms[j].handle
  }

  predicate HandlesBelow(rooms: seq<Room>, next: nat) {
    forall i :: 0 <= i < |rooms| ==> rooms[i].handle < next
  }

  /** What every step keeps: the room list never passes one over the maximum
      (see `AddChatroom`), every room respects its capacity, rooms are
      distinct objects, and nobody waits unless the ticket is held. */
  predicate Valid(m: Manager) {
    && |m.rooms| <= m.maxRooms + 1
    && RoomsValid(m.rooms)
    && HandlesDistinct(m.rooms)
    && HandlesBelow(m.rooms, m.nextHandle)
    && (|m.waiting| > 0 ==> m.holder.Some?)
  }

  /** `_addChatroom`: append the room at the end unless the list is already
      LONGER than the maximum, so a list of exactly `maxRooms` rooms still
      grows to `maxRooms + 1`. */
  function AddChatroom(rooms: seq<Room>, room: Room, maxRooms: nat): (r: seq<Room>)
    ensures |r| == |rooms| + 1 <==> |rooms| <= maxRooms
    ensures |r| == |rooms| || |r| == |rooms| + 1
    ensures r[..|rooms|] == rooms
    ensures |r| == |rooms| + 1 ==> r[|rooms|] == room
    ensures |rooms| <= maxRooms + 1 ==> |r| <= maxRooms + 1
  {
    if |rooms| > maxRooms then rooms else rooms + [room]
  }

  /** `NewChatroomManager` with the room maximum as a parameter (the Go code
      always passes `ChatroomMaxCapacity`): one empty room, ticket free. */
  function NewChatroomManager(maxRooms: nat): (m: Manager)
    ensures Valid(m)
    ensures |m.rooms| == 1 && m.rooms[0].members == map[] && m.rooms[0].id == 1
    ensures m.holder == None && m.waiting == []
  {
    Manager(AddChatroom([], NewChatroom(0, 0), maxRooms), maxRooms, None, [], 1)
  }

  /** Position of the first room that is the object `handle`. */
  function IndexOfHandle(rooms: seq<Room>, handle: nat): (r: Option<nat>)
    ensures r.Some? ==> r.value < |rooms| && rooms[r.value].handle == handle
    ensures r.Some? ==> forall i :: 0 <= i < r.value ==> rooms[i].handle != handle
    ensures r.None? ==> forall i :: 0 <= i < |rooms| ==> rooms[i].handle != handle
    decreases |rooms|
  {
    if |rooms| == 0 then None
    else if rooms[0].handle == handle then Some(0)
    else match IndexOfHandle(rooms[1..], handle)
      case None => None
      case Some(i) => Some(i + 1)
  }

  /** A room with the handle and none before it is the one `IndexOfHandle` finds. */
  lemma FirstWithHandle(rooms: seq<Room>, handle: nat, i: nat)
    requires i < |rooms| && rooms[i].handle == handle
    requires forall j :: 0 <= j < i ==> rooms[j].handle != handle
    ensures IndexOfHandle(rooms, handle) == Some(i)
  {
  }

  /** `_deleteChatroom`: walk the list and cut out the first room that is the
      target object; the rest keep their order, and an absent target changes
      nothing. */
  function DeleteChatroom(rooms: seq<Room>, handle: nat): (r: seq<Room>)
    ensures IndexOfHandle(rooms, handle).None? ==> r == rooms
    ensures IndexOfHandle(rooms, handle).Some? ==>
              var i := IndexOfHandle(rooms, handle).value;
              r == rooms[..i] + rooms[i + 1..]
    decreases |rooms|
  {
    if |rooms| == 0 then []
    else if rooms[0].handle == handle then rooms[1..]
    else [rooms[0]] + DeleteChatroom(rooms[1..], handle)
  }

  // ------------------------------------------------------------ sampling

  /** Outcome of the random phase: the room list with the user placed and the
      position of the room that took it, or no success. */
  datatype Sampled = Entered(rooms: seq<Room>, index: nat) | Exhausted

  /** The position `rand.Intn(len(rooms))` yields on attempt `a`. */
  function Pick(rooms: seq<Room>, draw: nat -> nat, a: nat): (i: nat)
    requires |rooms| > 0
    ensures i < |rooms|
  {
    draw(a) % |rooms|
  }

  /** `probabilitySamplingTryEnterRoom` from attempt `attempt` on: each attempt
      offers the user to the room the oracle draws, and the first room that
      accepts is returned. An empty room list counts as a failed phase (the
      Go code panics there; see `SampleAsWritten`). */
  function Sample(rooms: seq<Room>, user: User, draw: nat -> nat, attempt: nat): (r: Sampled)
    requires attempt <= MaxNumberOfRetries
    ensures r.Exhausted? <==>
              (|rooms| == 0 ||
               forall a :: attempt <= a < MaxNumberOfRetries ==> !Accepts(rooms[Pick(rooms, draw, a)]))
    ensures r.Entered? ==>
              && r.index < |rooms|
              && Accepts(rooms[r.index])
              && r.rooms == rooms[r.index := AddUserToRoom(rooms[r.index], user).room]
              && exists a :: attempt <= a < MaxNumberOfRetries
                   && Pick(rooms, draw, a) == r.index
                   && forall b :: attempt <= b < a ==> !Accepts(rooms[Pick(rooms, draw, b)])
    decreases MaxNumberOfRetries - attempt
  {
    if attempt == MaxNumberOfRetries || |rooms| == 0 then Exhausted
    else
      var i := Pick(rooms, draw, attempt);
      var joined := AddUserToRoom(rooms[i], user);
      if joined.ok then Entered(rooms[i := joined.room], i)
      else Sample(rooms, user, draw, attempt + 1)
  }

  /** Go's `rand.Intn(0)` panics; nothing recovers it, so the server process
      ends. */
  datatype Fault = IntnPanic

  /** The random phase exactly as written: with no room at all, the very
      first draw panics instead of failing over to the scan. */
  function SampleAsWritten(rooms: seq<Room>, user: User, draw: nat -> nat): (r: Result<Sampled, Fault>)
    ensures r.Fail? <==> |rooms| == 0
    ensures r.Ok? ==> r.value == Sample(rooms, user, draw, 0)
  {
    if |rooms| == 0 then Fail(IntnPanic) else Ok(Sample(rooms, user, draw, 0))
  }

  // --------------------------------------------------------- the ticket

  /** `tryGetMutexSign`: take the ticket when it is free (the scan for this
      user is then pending), otherwise join the back of the waiting queue. */
  function TryGetMutexSign(m: Manager, user: User): (r: Manager)
    ensures r.holder.Some?
    ensures m.holder.None? ==> r.holder == Some(user) && r.waiting == m.waiting
    ensures m.holder.Some? ==> r.holder == m.holder && r.waiting == m.waiting + [user]
    ensures r.rooms == m.rooms && r.maxRooms == m.maxRooms && r.nextHandle == m.nextHandle
    ensures Valid(m) ==> Valid(r)
  {
    if m.holder.None? then m.(holder := Some(user))
    else m.(waiting := m.waiting + [user])
  }

  datatype Assigned = Assigned(m: Manager, ok: bool, room: Option<nat>)

  /** `AssignRoomToUser`: fail fast once the list holds `maxRooms` rooms;
      otherwise sample, and when sampling fails hand the user to the ticket
      logic and report failure, whatever the scan will later do. */
  function AssignRoomToUser(m: Manager, user: User, draw: nat -> nat): (r: Assigned)
    ensures |m.rooms| >= m.maxRooms ==> r == Assigned(m, false, None)
    ensures r.ok <==> |m.rooms| < m.maxRooms && Sample(m.rooms, user, draw, 0).Entered?
    ensures r.ok ==>
              var s := Sample(m.rooms, user, draw, 0);
              && r.m == m.(rooms := s.rooms)
              && r.room == Some(m.rooms[s.index].handle)
              && user.name in r.m.rooms[s.index].members
    ensures !r.ok ==> r.room == None && r.m.rooms == m.rooms
    ensures !r.ok && |m.rooms| < m.maxRooms ==> r.m == TryGetMutexSign(m, user)
    ensures m.holder.Some? ==> r.m.holder == m.holder
    ensures |r.m.rooms| == |m.rooms| && r.m.nextHandle == m.nextHandle && r.m.maxRooms == m.maxRooms
    ensures forall i :: 0 <= i < |m.rooms| ==> r.m.rooms[i].handle == m.rooms[i].handle
    ensures Valid(m) ==> Valid(r.m)
  {
    if |m.rooms| >= m.maxRooms then Assigned(m, false, None)
    else
      match Sample(m.rooms, user, draw, 0)
      case Entered(rooms, i) => Assigned(m.(rooms := rooms), true, Some(m.rooms[i].handle))
      case Exhausted => Assigned(TryGetMutexSign(m, user), false, None)
  }

  // ----------------------------------------------------- the exact scan

  /** First room at or after `from` with room for one more member. */
  function FirstAccepting(rooms: seq<Room>, from: nat): (r: Option<nat>)
    requires from <= |rooms|
    ensures r.Some? ==> from <= r.value < |rooms| && Accepts(rooms[r.value])
    ensures r.Some? ==> forall j :: from <= j < r.value ==> !Accepts(rooms[j])
    ensures r.None? ==> forall j :: from <= j < |rooms| ==> !Accepts(rooms[j])
    decreases |rooms| - from
  {
    if from == |rooms| then None
    else if Accepts(rooms[from]) then Some(from)
    else FirstAccepting(rooms, from + 1)
  }

  datatype Confirmed = Confirmed(rooms: seq<Room>, placed: Option<nat>, nextHandle: nat)

  /** `actualConfirmation`: offer the user to every room in order and stop at
      the first that takes it; when none does, create one new room, numbered
      from the current count, and add it WITHOUT the user. */
  function ActualConfirmation(rooms: seq<Room>, user: User, nextHandle: nat, maxRooms: nat): (r: Confirmed)
    ensures r.placed.Some? ==>
              var i := r.placed.value;
              && i < |rooms| && Accepts(rooms[i])
              && (forall j :: 0 <= j < i ==> !Accepts(rooms[j]))
              && r.rooms == rooms[i := AddUserToRoom(rooms[i], user).room]
              && r.nextHandle == nextHandle
    ensures r.placed.None? ==>
              && (forall j :: 0 <= j < |rooms| ==> !Accepts(rooms[j]))
              && r.nextHandle == nextHandle + 1
              && r.rooms == AddChatroom(rooms, NewChatroom(nextHandle, |rooms|), maxRooms)
    ensures r.placed.None? && |rooms| <= maxRooms ==>
              |r.rooms| == |rooms| + 1 && r.rooms[|rooms|].members == map[]
  {
    match FirstAccepting(rooms, 0)
    case Some(i) => Confirmed(rooms[i := AddUserToRoom(rooms[i], user).room], Some(i), nextHandle)
    case None => Confirmed(AddChatroom(rooms, NewChatroom(nextHandle, |rooms|), maxRooms), None, nextHandle + 1)
  }

  /** `listenFinishConfirm`: every queued user goes back through
      `AssignRoomToUser`, oldest first; `draws(k)` is the oracle for the
      `k`-th resubmission. No room is created or removed on the way. */
  function Resubmit(m: Manager, queue: seq<User>, draws: nat -> (nat -> nat), k: nat): (r: Manager)
    ensures |r.rooms| == |m.rooms| && r.nextHandle == m.nextHandle && r.maxRooms == m.maxRooms
    ensures forall i :: 0 <= i < |m.rooms| ==> r.rooms[i].handle == m.rooms[i].handle
    ensures m.holder.Some? ==> r.holder == m.holder && |r.waiting| >= |m.waiting| && r.waiting[..|m.waiting|] == m.waiting
    ensures r.holder.Some? ==> r.holder == m.holder || r.holder.value in queue
    ensures forall u :: u in r.waiting ==> u in m.waiting || u in queue
    ensures |r.waiting| <= |m.waiting| + |queue|
    ensures m.holder.None? && |queue| > 0 ==> |r.waiting| < |m.waiting| + |queue|
    ensures Valid(m) ==> Valid(r)
    decreases |queue|
  {
    if |queue| == 0 then m
    else
      var next := AssignRoomToUser(m, queue[0], draws(k)).m;
      var r := Resubmit(next, queue[1..], draws, k + 1);
      assert next.waiting == m.waiting || next.waiting == m.waiting + [queue[0]];
      assert m.holder.Some? ==> r.waiting[..|m.waiting|] == next.waiting[..|m.waiting|];
      assert forall u :: u in queue[1..] ==> u in queue;
      r
  }

  /** The ticket holder's turn: the exact scan for the holder's user, then
      `finishConfirmation` (the ticket is free again) and the resubmission of
      everyone who queued meanwhile. With the ticket free nothing happens.
      This is the listener as evidently intended: each finish serves the
      queue once, so the queue is strictly shorter afterwards; the Go loop
      as written is `FinishAsWritten` and `RetryAsWritten`. */
  function Confirm(m: Manager, draws: nat -> (nat -> nat)): (r: Manager)
    ensures m.holder.None? ==> r == m
    ensures m.holder.Some? ==>
              var c := ActualConfirmation(m.rooms, m.holder.value, m.nextHandle, m.maxRooms);
              && |r.rooms| == |c.rooms|
              && r.nextHandle == c.nextHandle
              && (forall i :: 0 <= i < |c.rooms| ==> r.rooms[i].handle == c.rooms[i].handle)
              && (|m.waiting| == 0 ==> r.holder == None && r.waiting == [] && r.rooms == c.rooms)
              && (r.holder.Some? ==> r.holder.value in m.waiting)
              && (forall u :: u in r.waiting ==> u in m.waiting)
              && (|m.waiting| > 0 ==> |r.waiting| < |m.waiting|)
    ensures Valid(m) ==> Valid(r)
  {
    if m.holder.None? then m
    else
      var c := ActualConfirmation(m.rooms, m.holder.value, m.nextHandle, m.maxRooms);
      var released := Manager(c.rooms, m.maxRooms, None, [], c.nextHandle);
      assert Valid(m) ==> Valid(released) by {
        if Valid(m) {
          if c.placed.None? {
            var created := NewChatroom(m.nextHandle, |m.rooms|);
            assert c.rooms[..|m.rooms|] == m.rooms;
            assert forall i :: 0 <= i < |c.rooms| ==> c.rooms[i] == created || c.rooms[i] == m.rooms[i];
          }
        }
      }
      Resubmit(released, m.waiting, draws, 0)
  }

  /** Some room of the list has `name` among its members. */
  predicate Seated(rooms: seq<Room>, name: string) {
    exists i :: 0 <= i < |rooms| && name in rooms[i].members
  }

  /** Adding a user to one room of the list unseats nobody, and seats the
      user when that room accepts. */
  lemma JoinKeepsSeats(rooms: seq<Room>, i: nat, user: User)
    requires i < |rooms|
    ensures var after := rooms[i := AddUserToRoom(rooms[i], user).room];
            && (forall name :: Seated(rooms, name) ==> Seated(after, name))
            && (Accepts(rooms[i]) ==> Seated(after, user.name))
  {
    var after := rooms[i := AddUserToRoom(rooms[i], user).room];
    forall name | Seated(rooms, name)
      ensures Seated(after, name)
    {
      var j :| 0 <= j < |rooms| && name in rooms[j].members;
      assert name in after[j].members;
    }
    if Accepts(rooms[i]) {
      assert user.name in after[i].members;
    }
  }

  /** Assignment never unseats anybody, and a successful one seats the user. */
  lemma AssignKeepsSeats(m: Manager, user: User, draw: nat -> nat)
    ensures var r := AssignRoomToUser(m, user, draw);
            && (forall name :: Seated(m.rooms, name) ==> Seated(r.m.rooms, name))
            && (r.ok ==> Seated(r.m.rooms, user.name))
  {
    var r := AssignRoomToUser(m, user, draw);
    if r.ok {
      var s := Sample(m.rooms, user, draw, 0);
      assert r.m.rooms == s.rooms == m.rooms[s.index := AddUserToRoom(m.rooms[s.index], user).room];
      JoinKeepsSeats(m.rooms, s.index, user);
    } else {
      assert r.m.rooms == m.rooms;
    }
  }

  /** Resubmission never unseats anybody. */
  lemma {:induction false} ResubmitKeepsSeats(m: Manager, queue: seq<User>, draws: nat -> (nat -> nat), k: nat)
    ensures forall name :: Seated(m.rooms, name) ==> Seated(Resubmit(m, queue, draws, k).rooms, name)
    decreases |queue|
  {
    if |queue| > 0 {
      AssignKeepsSeats(m, queue[0], draws(k));
      ResubmitKeepsSeats(AssignRoomToUser(m, queue[0], draws(k)).m, queue[1..], draws, k + 1);
    }
  }

  /** Below the room maximum, no resubmitted user is lost: each one ends up
      seated in some room, holding the ticket, or waiting again. */
  lemma {:induction false} ResubmitKeepsEveryone(m: Manager, queue: seq<User>, draws: nat -> (nat -> nat), k: nat)
    requires |m.rooms| < m.maxRooms
    ensures var r := Resubmit(m, queue, draws, k);
            forall u :: u in queue ==> Seated(r.rooms, u.name) || r.holder == Some(u) || u in r.waiting
    decreases |queue|
  {
    if |queue| > 0 {
      var asg := AssignRoomToUser(m, queue[0], draws(k));
      var r := Resubmit(asg.m, queue[1..], draws, k + 1);
      AssignKeepsSeats(m, queue[0], draws(k));
      ResubmitKeepsSeats(asg.m, queue[1..], draws, k + 1);
      ResubmitKeepsEveryone(asg.m, queue[1..], draws, k + 1);
      if !asg.ok && asg.m.holder != Some(queue[0]) {
        var last := |asg.m.waiting| - 1;
        assert asg.m.waiting[last] == queue[0];
        assert r.waiting[..|asg.m.waiting|] == asg.m.waiting;
        assert r.waiting[last] == queue[0];
      }
      forall u | u in queue
        ensures Seated(r.rooms, u.name) || r.holder == Some(u) || u in r.waiting
      {
        if u != queue[0] {
          assert u in queue[1..];
        }
      }
    }
  }

  /** With the ticket held and no room accepting, every resubmitted user is
      refused by every draw and goes back to the end of the queue, in queue
      order; nothing else changes. */
  lemma {:induction false} ResubmitWhenAllFull(m: Manager, queue: seq<User>, draws: nat -> (nat -> nat), k: nat)
    requires m.holder.Some? && |m.rooms| < m.maxRooms
    requires forall i :: 0 <= i < |m.rooms| ==> !Accepts(m.rooms[i])
    ensures Resubmit(m, queue, draws, k) == m.(waiting := m.waiting + queue)
    decreases |queue|
  {
    if |queue| == 0 {
      assert m.waiting + queue == m.waiting;
    } else {
      var next := m.(waiting := m.waiting + [queue[0]]);
      assert Resubmit(m, queue, draws, k) == Resubmit(next, queue[1..], draws, k + 1) by {
        RefusedEverywhere(m, queue[0], draws(k));
      }
      ResubmitWhenAllFull(next, queue[1..], draws, k + 1);
      AppendHeadThenRest(m.waiting, queue);
    }
  }

  lemma AppendHeadThenRest<T>(a: seq<T>, q: seq<T>)
    requires |q| > 0
    ensures a + [q[0]] + q[1..] == a + q
  {
    assert q == [q[0]] + q[1..];
  }

  /** One step of the above: a user no room accepts joins the queue. */
  lemma RefusedEverywhere(m: Manager, user: User, draw: nat -> nat)
    requires m.holder.Some? && |m.rooms| < m.maxRooms
    requires forall i :: 0 <= i < |m.rooms| ==> !Accepts(m.rooms[i])
    ensures AssignRoomToUser(m, user, draw).m == m.(waiting := m.waiting + [user])
  {
    assert Sample(m.rooms, user, draw, 0).Exhausted?;
  }

  /** At the room maximum every resubmitted user fails fast, and the
      listener ignores the result: the whole queue is dropped silently. */
  lemma {:induction false} ResubmitAtMaximum(m: Manager, queue: seq<User>, draws: nat -> (nat -> nat), k: nat)
    requires |m.rooms| >= m.maxRooms
    ensures Resubmit(m, queue, draws, k) == m
    decreases |queue|
  {
    if |queue| > 0 {
      ResubmitAtMaximum(m, queue[1..], draws, k + 1);
    }
  }

  /** The corrected listener serves each queued user once: a holder seated by
      the scan stays seated; below the maximum every queued user ends up
      seated, holding the ticket, or waiting again; at the maximum the queue
      is dropped and the ticket is free. */
  lemma ConfirmServesQueue(m: Manager, draws: nat -> (nat -> nat))
    requires m.holder.Some?
    ensures var c := ActualConfirmation(m.rooms, m.holder.value, m.nextHandle, m.maxRooms);
            var r := Confirm(m, draws);
            && (c.placed.Some? ==> Seated(r.rooms, m.holder.value.name))
            && (|c.rooms| < m.maxRooms ==>
                  forall u :: u in m.waiting ==> Seated(r.rooms, u.name) || r.holder == Some(u) || u in r.waiting)
            && (|c.rooms| >= m.maxRooms ==> r == Manager(c.rooms, m.maxRooms, None, [], c.nextHandle))
  {
    var c := ActualConfirmation(m.rooms, m.holder.value, m.nextHandle, m.maxRooms);
    var released := Manager(c.rooms, m.maxRooms, None, [], c.nextHandle);
    assert Confirm(m, draws) == Resubmit(released, m.waiting, draws, 0);
    ResubmitKeepsSeats(released, m.waiting, draws, 0);
    if c.placed.Some? {
      assert m.holder.value.name in c.rooms[c.placed.value].members;
    }
    if |c.rooms| < m.maxRooms {
      ResubmitKeepsEveryone(released, m.waiting, draws, 0);
    } else {
      ResubmitAtMaximum(released, m.waiting, draws, 0);
    }
  }

  // ------------------------------------- the finish listener as written

  /** Where `listenFinishConfirm` is: waiting for the first finish signal, or
      inside its `range` over the queue channel, which it never leaves
      because nothing closes that channel. */
  datatype Listener = AwaitingFinish | Draining

  /** The manager, the listener, and how many `sendFinishConfirmChannel`
      goroutines are blocked for good on a signal nobody reads. */
  datatype Loop = Loop(m: Manager, listener: Listener, blocked: nat)

  /** `actualConfirmation` and its deferred `finishConfirmation` as written:
      the scan runs and the ticket comes back, but the queue is left as it
      is. The first finish signal starts the listener's drain; every later
      one goes to a channel that is never read again. */
  function FinishAsWritten(s: Loop): (r: Loop)
    ensures s.m.holder.None? ==> r == s
    ensures s.m.holder.Some? ==>
              var c := ActualConfirmation(s.m.rooms, s.m.holder.value, s.m.nextHandle, s.m.maxRooms);
              && r.m.holder == None && r.m.waiting == s.m.waiting
              && r.m.rooms == c.rooms && r.m.nextHandle == c.nextHandle && r.m.maxRooms == s.m.maxRooms
              && r.listener.Draining?
              && (r.blocked == s.blocked + 1 <==> s.listener.Draining?)
              && r.blocked >= s.blocked
  {
    if s.m.holder.None? then s
    else
      var c := ActualConfirmation(s.m.rooms, s.m.holder.value, s.m.nextHandle, s.m.maxRooms);
      var released := s.m.(rooms := c.rooms, holder := None, nextHandle := c.nextHandle);
      if s.listener.AwaitingFinish? then Loop(released, Draining, s.blocked)
      else Loop(released, Draining, s.blocked + 1)
  }

  /** One turn of the listener's `range` as written: once it drains, the
      oldest queued user is taken out at any moment, whether or not the
      ticket is held, and goes back through `AssignRoomToUser`. */
  function RetryAsWritten(s: Loop, draw: nat -> nat): (r: Option<Loop>)
    ensures r.Some? <==> s.listener.Draining? && |s.m.waiting| > 0
    ensures r.Some? ==> r.value.listener.Draining? && r.value.blocked == s.blocked
    ensures r.Some? ==> |r.value.m.rooms| == |s.m.rooms| && |r.value.m.waiting| <= |s.m.waiting|
    ensures r.Some? && s.m.holder.Some? ==> r.value.m.holder == s.m.holder
    ensures r.Some? ==>
              || r.value.m.waiting == s.m.waiting[1..]
              || r.value.m.waiting == s.m.waiting[1..] + [s.m.waiting[0]]
    ensures r.Some? && |s.m.rooms| < s.m.maxRooms && Sample(s.m.rooms, s.m.waiting[0], draw, 0).Entered? ==>
              var placed := Sample(s.m.rooms, s.m.waiting[0], draw, 0);
              && r.value.m == s.m.(rooms := placed.rooms, waiting := s.m.waiting[1..])
              && s.m.waiting[0].name in r.value.m.rooms[placed.index].members
    ensures r.Some? && s.m.holder.Some? && |s.m.rooms| < s.m.maxRooms
            && Sample(s.m.rooms, s.m.waiting[0], draw, 0).Exhausted? ==>
              r.value.m == s.m.(waiting := s.m.waiting[1..] + [s.m.waiting[0]])
  {
    if s.listener.AwaitingFinish? || |s.m.waiting| == 0 then None
    else
      var rest := s.m.(waiting := s.m.waiting[1..]);
      Some(Loop(AssignRoomToUser(rest, s.m.waiting[0], draw).m, Draining, s.blocked))
  }

  /** The Go listener never rests: with the ticket held and every room full,
      a queued user is taken out, refused, and put back, leaving the state
      exactly as it was, so the same turn repeats without end; and once the
      listener drains, the next finish signal blocks its sender for good. */
  lemma FinishListenerSpins(full: Room, h: User, u: User, draw: nat -> nat)
    requires |full.members| == full.capacity
    ensures var s := Loop(Manager([full], ChatroomMaxCapacity, Some(h), [u], 1), Draining, 0);
            && RetryAsWritten(s, draw) == Some(s)
            && FinishAsWritten(s).blocked == 1
            && FinishAsWritten(s).m.waiting == [u]
  {
    var m := Manager([full], ChatroomMaxCapacity, Some(h), [u], 1);
    assert forall a :: draw(a) % 1 == 0;
    assert Sample(m.rooms, u, draw, 0).Exhausted?;
    assert TryGetMutexSign(m.(waiting := []), u) == m;
  }

  // ------------------------------------------------- leaving and deletion

  /** `perCheckDeleteChatroom` on receiving the room's signal: ask for the
      room's deletion only if it has no member at that moment. */
  function PerCheckDeleteChatroom(rooms: seq<Room>, room: Room): (r: seq<Room>)
    ensures |room.members| > 0 ==> r == rooms
    ensures |room.members| == 0 ==> r == DeleteChatroom(rooms, room.handle)
  {
    if |room.members| == 0 then DeleteChatroom(rooms, room.handle) else rooms
  }

  /** A member of room `handle` quits: `TerminalUserConnect` drops the member
      keyed by `addr` and raises the signal, on which the watcher re-checks
      and removes the room from the list if it is now empty. Every other room
      is untouched. */
  function Leave(m: Manager, handle: nat, addr: string): (r: Manager)
    ensures IndexOfHandle(m.rooms, handle).None? ==> r == m
    ensures IndexOfHandle(m.rooms, handle).Some? ==>
              var i := IndexOfHandle(m.rooms, handle).value;
              var left := TerminalUserConnect(m.rooms[i], addr);
              && r == m.(rooms := r.rooms)
              && (|left.members| > 0 ==> r.rooms == m.rooms[i := left])
              && (|left.members| == 0 ==> r.rooms == m.rooms[..i] + m.rooms[i + 1..])
    ensures Valid(m) ==> Valid(r)
  {
    match IndexOfHandle(m.rooms, handle)
    case None => m
    case Some(i) =>
      var left := TerminalUserConnect(m.rooms[i], addr);
      var rooms := m.rooms[i := left];
      FirstWithHandle(rooms, handle, i);
      assert rooms[..i] == m.rooms[..i] && rooms[i + 1..] == m.rooms[i + 1..];
      ReplaceKeepsValid(m, i, left);
      RemoveKeepsValid(m, i);
      m.(rooms := PerCheckDeleteChatroom(rooms, left))
  }

  lemma ReplaceKeepsValid(m: Manager, i: nat, room: Room)
    requires i < |m.rooms| && room.handle == m.rooms[i].handle
    requires Chatroom.Valid(m.rooms[i]) ==> Chatroom.Valid(room)
    ensures Valid(m) ==> Valid(m.(rooms := m.rooms[i := room]))
  {
  }

  lemma RemoveKeepsValid(m: Manager, i: nat)
    requires i < |m.rooms|
    ensures Valid(m) ==> Valid(m.(rooms := m.rooms[..i] + m.rooms[i + 1..]))
  {
  }

  /** The public `AddChatroom`: a fresh empty room, numbered from the current
      count, through `_addChatroom`'s bound. */
  function AddChatroomStep(m: Manager): (r: Manager)
    ensures |m.rooms| <= m.maxRooms ==> |r.rooms| == |m.rooms| + 1 && r.rooms[|m.rooms|].members == map[]
    ensures |m.rooms| > m.maxRooms ==> r.rooms == m.rooms
    ensures r.rooms[..|m.rooms|] == m.rooms
    ensures Valid(m) ==> Valid(r)
  {
    var created := NewChatroom(m.nextHandle, |m.rooms|);
    var r := m.(rooms := AddChatroom(m.rooms, created, m.maxRooms), nextHandle := m.nextHandle + 1);
    assert forall i :: 0 <= i < |r.rooms| ==> r.rooms[i] == created || r.rooms[i] == m.rooms[i];
    r
  }

  // -------------------------------------------------------------- lemmas

  /** Because `_addChatroom` compares with `>`, a valid manager really can
      hold one room more than its maximum. */
  lemma RoomListReachesMaxPlusOne()
    ensures var m := AddChatroomStep(NewChatroomManager(1));
            Valid(m) && |m.rooms| == m.maxRooms + 1
  {
  }

  /** Once the maximum is reached, assignment fails fast with no change. */
  lemma FullManagerFailsFast(m: Manager, user: User, draw: nat -> nat)
    requires |m.rooms| >= m.maxRooms
    ensures AssignRoomToUser(m, user, draw) == Assigned(m, false, None)
  {
  }

  /** Two members fill a room of capacity two; a third user is refused by
      every draw, takes the ticket, and the scan appends one new empty room
      without placing the user anywhere. */
  lemma ThirdUserGetsNewRoomButNoSeat(a: User, b: User, c: User, draw: nat -> nat, draws: nat -> (nat -> nat))
    requires a.name != b.name && c.name != a.name && c.name != b.name
    ensures
      var full := Room(0, 1, map[a.name := a, b.name := b], 2);
      var m := Manager([full], ChatroomMaxCapacity, None, [], 1);
      var asg := AssignRoomToUser(m, c, draw);
      var after := Confirm(asg.m, draws);
      && !asg.ok && asg.m.holder == Some(c)
      && after.rooms == [full, NewChatroom(1, 1)]
      && after.holder == None && after.waiting == []
      && forall i :: 0 <= i < |after.rooms| ==> c.name !in after.rooms[i].members
  {
    var full := Room(0, 1, map[a.name := a, b.name := b], 2);
    var m := Manager([full], ChatroomMaxCapacity, None, [], 1);
    assert |full.members| == 2;
    assert Sample(m.rooms, c, draw, 0).Exhausted?;
    var asg := AssignRoomToUser(m, c, draw);
    assert asg.m == m.(holder := Some(c));
    assert FirstAccepting(m.rooms, 0).None?;
    var scan := ActualConfirmation(m.rooms, c, 1, ChatroomMaxCapacity);
    assert scan.rooms == [full, NewChatroom(1, 1)];
    assert Confirm(asg.m, draws) == Manager(scan.rooms, ChatroomMaxCapacity, None, [], 2);
  }

  /** The watcher's deletion can empty the room list: the one user of a new
      manager quits, and the next arrival's first random draw then panics in
      `rand.Intn(0)` even though the maximum is far away. */
  lemma EveryRoomDeletedPanics(a: User, b: User, draw: nat -> nat)
    ensures
      var m0 := NewChatroomManager(ChatroomMaxCapacity);
      var asg := AssignRoomToUser(m0, a, draw);
      var m1 := Leave(asg.m, 0, a.name);
      && asg.ok && asg.room == Some(0)
      && m1.rooms == [] && |m1.rooms| < m1.maxRooms
      && SampleAsWritten(m1.rooms, b, draw) == Fail(IntnPanic)
  {
  }

  /** With the empty list read as a failed random phase, an arrival at a
      manager without rooms takes the ticket, and its scan creates a room. */
  lemma EmptyManagerScansInstead(m: Manager, user: User, draw: nat -> nat, draws: nat -> (nat -> nat))
    requires Valid(m) && m.rooms == [] && m.holder == None && m.maxRooms > 0
    ensures var asg := AssignRoomToUser(m, user, draw);
            && !asg.ok && asg.m.holder == Some(user)
            && |Confirm(asg.m, draws).rooms| == 1
  {
  }
}

=== FILE: message_ring.dfy ===
/** The message ring (`MsgRecording`): a fixed number of slots, a write
    cursor that wraps around, and a fill count that stops at the capacity.
    It is a standalone structure: no room holds one, and broadcasts do not
    append to it.
    Reading from a reader's cursor returns what was written since, wrapping
    around the end of the slots once every slot has been written. */
module MessageRing {
  import opened Results

  datatype Ring = Ring(cursor: nat, size: nat, capacity: nat, slots: seq<string>)

  /** The shape every ring keeps: one slot per unit of capacity, the cursor on
      a slot, the fill count within capacity, and, until the ring has filled
      up once, the cursor sitting right after the last message written. */
  predicate Valid(r: Ring) {
    && r.capacity > 0
    && |r.slots| == r.capacity
    && r.cursor < r.capacity
    && r.size <= r.capacity
    && (r.size < r.capacity ==> r.cursor == r.size)
  }

  /** Why a read panics: Go's slice bounds check, or the explicit panic for a
      reader ahead of the writer on a ring that has not wrapped. */
  datatype ReadFault = SliceOutOfRange | ReadAheadOfWriter

  /** `NewMsgRing`, with the capacity (a package constant in the Go code)
      as a parameter. Unwritten slots hold Go's zero string. */
  function NewMsgRing(capacity: nat): (r: Ring)
    requires capacity > 0
    ensures Valid(r)
    ensures r.cursor == 0 && r.size == 0 && r.capacity == capacity
    ensures |r.slots| == capacity
  {
    Ring(0, 0, capacity, seq(capacity, _ => ""))
  }

  predicate IsFull(r: Ring) {
    r.size == r.capacity
  }

  function Min(a: int, b: int): int {
    if a <= b then a else b
  }

  /** `AddCoverMsg`: overwrite the slot under the cursor, advance the cursor
      modulo the capacity, and count the message until the ring is full. */
  function AddCoverMsg(r: Ring, msg: string): (r': Ring)
    requires Valid(r)
    ensures Valid(r')
    ensures r'.capacity == r.capacity
    ensures r'.slots[r.cursor] == msg
    ensures forall i :: 0 <= i < r.capacity && i != r.cursor ==> r'.slots[i] == r.slots[i]
    ensures r'.cursor == if r.cursor + 1 == r.capacity then 0 else r.cursor + 1
    ensures r'.size == Min(r.size + 1, r.capacity)
  {
    var slots := r.slots[r.cursor := msg];
    // `(cursor + 1) % capacity`, written out: the cursor is below the capacity
    var cursor := if r.cursor + 1 == r.capacity then 0 else r.cursor + 1;
    var size := if !IsFull(r) then r.size + 1 else r.size;
    Ring(cursor, size, r.capacity, slots)
  }

  /** `GetSeqMsg(u)`: the messages from a reader's cursor `u` up to the writer. */
  function GetSeqMsg(r: Ring, u: int): (res: Result<seq<string>, ReadFault>)
    requires Valid(r)
    ensures 0 <= u <= r.cursor ==> res == Ok(r.slots[u..r.cursor])
    ensures u < 0 ==> res == Fail(SliceOutOfRange)
    ensures r.cursor < u && !IsFull(r) ==> res == Fail(ReadAheadOfWriter)
    ensures r.cursor < u && IsFull(r) && u > r.capacity ==> res == Fail(SliceOutOfRange)
    ensures r.cursor < u <= r.capacity && IsFull(r) ==>
              && res.Ok?
              && |res.value| == r.capacity - u + r.cursor
              && (forall j :: 0 <= j < r.capacity - u ==> res.value[j] == r.slots[u + j])
              && (forall j :: 0 <= j < r.cursor ==> res.value[r.capacity - u + j] == r.slots[j])
  {
    if u <= r.cursor then
      if u < 0 then Fail(SliceOutOfRange) else Ok(r.slots[u..r.cursor])
    else if IsFull(r) then
      if u > r.capacity then Fail(SliceOutOfRange)
      else Ok(r.slots[u..r.capacity] + r.slots[0..r.cursor])
    else
      Fail(ReadAheadOfWriter)
  }

  // ------------------------------------------------------- the ring as a log

  /** Slot holding the `d`-th most recent message (`d == 1` is the newest):
      `d` steps back from the cursor, wrapping below zero. */
  function Back(cursor: nat, d: nat, capacity: nat): nat
    requires cursor < capacity && 1 <= d <= capacity
    ensures Back(cursor, d, capacity) < capacity
  {
    if d <= cursor then cursor - d else cursor + capacity - d
  }

  /** The ring holds the newest `size` messages of `history` (all of them until
      the ring fills, then the newest `capacity`), each in its own slot. */
  ghost predicate Remembers(r: Ring, history: seq<string>) {
    && Valid(r)
    && r.size == Min(|history|, r.capacity)
    && forall d :: 1 <= d <= r.size ==> r.slots[Back(r.cursor, d, r.capacity)] == history[|history| - d]
  }

  /** A fresh ring after appending `history` in order. */
  function Build(capacity: nat, history: seq<string>): (r: Ring)
    requires capacity > 0
    ensures Valid(r) && r.capacity == capacity
  {
    if |history| == 0 then NewMsgRing(capacity)
    else AddCoverMsg(Build(capacity, history[..|history| - 1]), history[|history| - 1])
  }

  /** One append keeps the ring faithful to the history extended by that message. */
  lemma AddCoverMsgRemembers(r: Ring, history: seq<string>, msg: string)
    requires Remembers(r, history)
    ensures Remembers(AddCoverMsg(r, msg), history + [msg])
  {
    var r' := AddCoverMsg(r, msg);
    var h' := history + [msg];
    forall d | 1 <= d <= r'.size
      ensures r'.slots[Back(r'.cursor, d, r'.capacity)] == h'[|h'| - d]
    {
      if d == 1 {
        assert Back(r'.cursor, d, r'.capacity) == r.cursor;
      } else {
        assert Back(r'.cursor, d, r'.capacity) == Back(r.cursor, d - 1, r.capacity);
        assert Back(r.cursor, d - 1, r.capacity) != r.cursor;
      }
    }
  }

  /** Every ring built by appends remembers exactly what was appended. */
  lemma {:induction false} BuildRemembers(capacity: nat, history: seq<string>)
    requires capacity > 0
    ensures Remembers(Build(capacity, history), history)
  {
    if |history| > 0 {
      var prefix := history[..|history| - 1];
      BuildRemembers(capacity, prefix);
      AddCoverMsgRemembers(Build(capacity, prefix), prefix, history[|history| - 1]);
      assert prefix + [history[|history| - 1]] == history;
    }
  }

  /** The read contract in terms of the log: a reader at `u` gets the newest
      messages in the order they were written, as many as lie between `u` and
      the writer (going round the end of the slots when the ring is full). */
  lemma ReadReturnsNewest(r: Ring, history: seq<string>, u: int)
    requires Remembers(r, history)
    ensures 0 <= u <= r.cursor ==>
              GetSeqMsg(r, u) == Ok(history[|history| - (r.cursor - u)..])
    ensures IsFull(r) && r.cursor < u <= r.capacity ==>
              GetSeqMsg(r, u) == Ok(history[|history| - (r.capacity - u + r.cursor)..])
  {
    if 0 <= u <= r.cursor {
      var n := r.cursor - u;
      var got := r.slots[u..r.cursor];
      var want := history[|history| - n..];
      assert r.cursor <= r.size;
      forall j | 0 <= j < n ensures got[j] == want[j] {
        assert Back(r.cursor, n - j, r.capacity) == u + j;
      }
      assert got == want;
    } else if IsFull(r) && r.cursor < u <= r.capacity {
      var n := r.capacity - u + r.cursor;
      var got := GetSeqMsg(r, u).value;
      var want := history[|history| - n..];
      forall j | 0 <= j < n ensures got[j] == want[j] {
        if j < r.capacity - u {
          assert Back(r.cursor, n - j, r.capacity) == u + j;
        } else {
          assert Back(r.cursor, n - j, r.capacity) == j - (r.capacity - u);
        }
      }
      assert got == want;
    }
  }

  /** Before the ring fills, a reader starting at slot 0 gets every message in
      write order. */
  lemma ReadAllBeforeFull(capacity: nat, history: seq<string>)
    requires 0 < capacity && |history| < capacity
    ensures GetSeqMsg(Build(capacity, history), 0) == Ok(history)
  {
    var r := Build(capacity, history);
    BuildRemembers(capacity, history);
    ReadReturnsNewest(r, history, 0);
  }

  /** Exactly `capacity` appends bring the cursor back to slot 0, so a reader
      starting at slot 0 then gets nothing at all. */
  lemma ReadNothingWhenJustFull(capacity: nat, history: seq<string>)
    requires 0 < capacity && |history| == capacity
    ensures Build(capacity, history).cursor == 0
    ensures GetSeqMsg(Build(capacity, history), 0) == Ok([])
  {
    var prefix := history[..|history| - 1];
    BuildRemembers(capacity, prefix);
    assert Build(capacity, prefix).size == capacity - 1;
  }

  /** Once the ring has wrapped, the oldest message still held sits under the
      cursor; reading from one past it returns the `capacity - 1` newest. */
  lemma ReadAfterWrap(capacity: nat, history: seq<string>)
    requires 0 < capacity <= |history|
    ensures var r := Build(capacity, history);
            GetSeqMsg(r, r.cursor + 1) == Ok(history[|history| - (capacity - 1)..])
  {
    var r := Build(capacity, history);
    BuildRemembers(capacity, history);
    ReadReturnsNewest(r, history, r.cursor + 1);
  }
}

=== FILE: results.dfy ===
/** Failure-carrying wrappers shared by every module of the model.
    `Option` stands for Go's `(value, ok)` / nil returns, `Result` for a
    computation that may end in a Go panic instead of a value. */
module Results {

  datatype Option<T> = None | Some(value: T)

  datatype Result<T, E> = Ok(value: T) | Fail(error: E)
}

=== FILE: safe_user_map.dfy ===
/** The counted directory (`SafeUserMap`): a concurrent map from user name to
    user plus a separate counter that `Len` reports in constant time. Here the
    concurrent map is a plain `map` and each operation returns the new
    directory. The counter is a real field, kept apart from the map exactly as
    in the Go code, so that its agreement with the map is something to prove. */
module SafeUserMap {
  import opened Results

  datatype Directory<V> = Directory(entries: map<string, V>, count: int)

  /** The counter agrees with the number of names stored. */
  predicate Valid<V>(d: Directory<V>) {
    d.count == |d.entries|
  }

  /** The constructor: no entries, counter at zero. */
  function NewSafeUserMap<V>(): (d: Directory<V>)
    ensures Valid(d) && d.entries == map[]
  {
    Directory(map[], 0)
  }

  /** `GetUser`: the stored user when the name is present, nil otherwise. */
  function GetUser<V>(d: Directory<V>, name: string): (r: Option<V>)
    ensures r.Some? <==> name in d.entries
    ensures r.Some? ==> r.value == d.entries[name]
  {
    if name in d.entries then Some(d.entries[name]) else None
  }

  /** What `SetUser` hands back: the new directory, the user now stored under
      the name, and whether this call stored it. */
  datatype Stored<V> = Stored(dir: Directory<V>, user: V, inserted: bool)

  /** `SetUser` (load-or-store): an absent name is stored and counted once;
      a present name keeps its user and the counter does not move. */
  function SetUser<V>(d: Directory<V>, name: string, user: V): (r: Stored<V>)
    ensures name !in d.entries ==>
              && r.inserted && r.user == user
              && r.dir.entries == d.entries[name := user]
              && r.dir.count == d.count + 1
    ensures name in d.entries ==>
              !r.inserted && r.user == d.entries[name] && r.dir == d
    ensures Valid(d) ==> Valid(r.dir)
  {
    if name in d.entries then Stored(d, d.entries[name], false)
    else Stored(Directory(d.entries[name := user], d.count + 1), user, true)
  }

  /** What `DeleteUser` hands back: the new directory and the removed user, if any. */
  datatype Removed<V> = Removed(dir: Directory<V>, user: Option<V>)

  /** `DeleteUser` (load-and-delete): a present name is removed and uncounted
      once; an absent name changes nothing and yields nil. */
  function DeleteUser<V>(d: Directory<V>, name: string): (r: Removed<V>)
    ensures name in d.entries ==>
              && r.user == Some(d.entries[name])
              && r.dir.entries == d.entries - {name}
              && r.dir.count == d.count - 1
    ensures name !in d.entries ==> r.user == None && r.dir == d
    ensures Valid(d) ==> Valid(r.dir)
  {
    if name !in d.entries then Removed(d, None)
    else Removed(Directory(d.entries - {name}, d.count - 1), Some(d.entries[name]))
  }

  /** `Len`: the counter, which on a valid directory is the number of names. */
  function Len<V>(d: Directory<V>): (n: int)
    ensures Valid(d) ==> n == |d.entries|
  {
    d.count
  }

  /** A mutation of the directory, as any goroutine may issue it. */
  datatype Op<V> = Set(name: string, user: V) | Delete(name: string)

  function Apply<V>(d: Directory<V>, op: Op<V>): Directory<V> {
    match op
    case Set(name, user) => SetUser(d, name, user).dir
    case Delete(name) => DeleteUser(d, name).dir
  }

  /** A directory after a whole sequence of mutations, in order. */
  function ApplyAll<V>(d: Directory<V>, ops: seq<Op<V>>): Directory<V>
    decreases |ops|
  {
    if |ops| == 0 then d else ApplyAll(Apply(d, ops[0]), ops[1..])
  }

  /** After any sequence of mutations from a valid directory, `Len` is the
      number of names actually stored. */
  lemma {:induction false} LenCountsEntries<V>(d: Directory<V>, ops: seq<Op<V>>)
    requires Valid(d)
    ensures Len(ApplyAll(d, ops)) == |ApplyAll(d, ops).entries|
    decreases |ops|
  {
    if |ops| > 0 {
      LenCountsEntries(Apply(d, ops[0]), ops[1..]);
    }
  }

  /** Set, get and delete of one fresh name all see the same user, and the
      directory ends as it began. */
  lemma SetGetDelete<V>(d: Directory<V>, name: string, user: V)
    requires Valid(d) && name !in d.entries
    ensures var s := SetUser(d, name, user);
            && s == Stored(s.dir, user, true)
            && GetUser(s.dir, name) == Some(user)
            && DeleteUser(s.dir, name) == Removed(d, Some(user))
  {
  }
}

=== FILE: text.dfy ===
/** The two pieces of Go's standard library the chat server leans on for its
    wire format: `strings.Split` / `strings.Join` with a one-character
    separator, and `strconv.Atoi` for the opcode field. */
module Text {
  import opened Results

  /** `strings.Split(s, string(c))`: the pieces of `s` between occurrences of `c`.
      There is always one more piece than there are separators, so the empty
      string splits into `[""]`. */
  function Split(s: string, c: char): (r: seq<string>)
    ensures |r| >= 1
    ensures forall i :: 0 <= i < |r| ==> c !in r[i]
    ensures Join(r, [c]) == s
    decreases |s|
  {
    if |s| == 0 then [""]
    else
      var rest := Split(s[1..], c);
      if s[0] == c then
        [""] + rest
      else
        assert s == [s[0]] + s[1..];
        [[s[0]] + rest[0]] + rest[1..]
  }

  /** `strings.Join(parts, sep)`. */
  function Join(parts: seq<string>, sep: string): string
  {
    if |parts| == 0 then ""
    else if |parts| == 1 then parts[0]
    else parts[0] + sep + Join(parts[1..], sep)
  }

  /** Splitting at the first separator: the text before it is the first piece. */
  lemma {:induction false} SplitAtFirst(a: string, c: char, b: string)
    requires c !in a
    ensures Split(a + [c] + b, c) == [a] + Split(b, c)
    decreases |a|
  {
    var s := a + [c] + b;
    if |a| == 0 {
      assert s[0] == c && s[1..] == b;
    } else {
      assert s[0] == a[0] && s[1..] == a[1..] + [c] + b;
      SplitAtFirst(a[1..], c, b);
      assert [a[0]] + a[1..] == a;
    }
  }

  /** A string without the separator is a single piece. */
  lemma {:induction false} SplitWithoutSeparator(a: string, c: char)
    requires c !in a
    ensures Split(a, c) == [a]
    decreases |a|
  {
    if |a| > 0 {
      SplitWithoutSeparator(a[1..], c);
      assert [a[0]] + a[1..] == a;
    }
  }

  /** Split undoes Join when no piece contains the separator. */
  lemma {:induction false} SplitJoin(parts: seq<string>, c: char)
    requires |parts| >= 1
    requires forall i :: 0 <= i < |parts| ==> c !in parts[i]
    ensures Split(Join(parts, [c]), c) == parts
    decreases |parts|
  {
    if |parts| == 1 {
      SplitWithoutSeparator(parts[0], c);
    } else {
      SplitJoin(parts[1..], c);
      SplitAtFirst(parts[0], c, Join(parts[1..], [c]));
      assert [parts[0]] + parts[1..] == parts;
    }
  }

  // ---------------------------------------------------------------- strconv.Atoi

  const MinInt64: int := -0x8000_0000_0000_0000
  const MaxInt64: int := 0x7fff_ffff_ffff_ffff

  predicate IsDigit(ch: char) {
    '0' <= ch <= '9'
  }

  predicate AllDigits(s: string) {
    forall i :: 0 <= i < |s| ==> IsDigit(s[i])
  }

  /** Value of a run of decimal digits, most significant first. */
  function DigitsValue(s: string): nat
    requires AllDigits(s)
  {
    if |s| == 0 then 0
    else DigitsValue(s[..|s| - 1]) * 10 + (s[|s| - 1] as int - '0' as int)
  }

  /** `strconv.Atoi`: an optional `+` or `-`, then at least one decimal digit,
      and a value that fits in Go's 64-bit `int`; anything else is an error. */
  function Atoi(s: string): (r: Option<int>)
    ensures r.Some? ==> |s| >= 1 && MinInt64 <= r.value <= MaxInt64
    ensures r.Some? ==>
              && (forall i :: 0 < i < |s| ==> IsDigit(s[i]))
              && (IsDigit(s[0]) || ((s[0] == '+' || s[0] == '-') && |s| >= 2))
    ensures r.Some? && s[0] == '-' ==> r.value <= 0
    ensures r.Some? && s[0] != '-' ==> r.value >= 0
  {
    var signed := |s| > 0 && (s[0] == '+' || s[0] == '-');
    var digits := if signed then s[1..] else s;
    if |digits| == 0 || !AllDigits(digits) then None
    else
      var v := if signed && s[0] == '-' then 0 - DigitsValue(digits) as int else DigitsValue(digits) as int;
      if v < MinInt64 || v > MaxInt64 then None else Some(v)
  }

  /** Decimal rendering of a natural number (`strconv.Itoa` on non-negatives). */
  function Decimal(n: nat): string
  {
    if n < 10 then [('0' as int + n) as char]
    else Decimal(n / 10) + [('0' as int + n % 10) as char]
  }

  lemma {:induction false} DecimalDigits(n: nat)
    ensures |Decimal(n)| >= 1 && AllDigits(Decimal(n)) && DigitsValue(Decimal(n)) == n
  {
    if n >= 10 {
      DecimalDigits(n / 10);
      var d := Decimal(n);
      assert d[..|d| - 1] == Decimal(n / 10);
    }
  }

  /** Atoi reads back every in-range non-negative number written in decimal. */
  lemma AtoiDecimal(n: nat)
    requires n <= MaxInt64
    ensures Atoi(Decimal(n)) == Some(n)
  {
    DecimalDigits(n);
  }

  /** ... and every in-range negative one, written with a leading minus. */
  lemma AtoiNegativeDecimal(n: nat)
    requires n <= -MinInt64
    ensures Atoi("-" + Decimal(n)) == Some(0 - n as int)
  {
    DecimalDigits(n);
    assert ("-" + Decimal(n))[1..] == Decimal(n);
  }
}

=== FILE: user.dfy ===
/** A connected user and the dispatch loop that drains its private mailbox
    (`User.listenAndSendPrivateMsg`). A mailbox entry is an envelope
    `name#body`; the loop splits it on `#`, looks the name up in the directory
    the user was created with, and writes the body to that user's connection. */
module Users {
  import opened Results
  import Text
  import SafeUserMap

  /** The user record without its connection, channel and directory pointer:
      the name (by default the remote `host:port`), host and port. */
  datatype User = User(name: string, ip: string, port: string)

  type Directory = SafeUserMap.Directory<User>

  /** The Go panics of the dispatch loop: indexing the second piece of an
      envelope without `#`, or writing to the connection of a user that the
      directory lookup returned as nil. Nothing recovers them, so a `Fail`
      means the whole server process stops. */
  datatype Panic = IndexOutOfRange | NilDereference

  /** A write of `body` to `recipient`'s connection. */
  datatype Delivery = Delivery(recipient: User, body: string)

  /** The envelope split of the dispatch loop: the name is the text before the first `#`, the
      body the text between the first and the second `#`; anything after a
      second `#` is dropped, and an envelope without `#` panics. */
  function DecodeEnvelope(env: string): (r: Result<(string, string), Panic>)
    ensures '#' !in env <==> r == Fail(IndexOutOfRange)
    ensures '#' in env <==> r.Ok?
    ensures r.Fail? ==> r.error == IndexOutOfRange
    ensures r.Ok? ==>
              var (name, body) := r.value;
              var end := |name| + 1 + |body|;
              && '#' !in name && '#' !in body
              && end <= |env|
              && env[..|name|] == name
              && env[|name|] == '#'
              && env[|name| + 1..end] == body
              && (end == |env| || env[end] == '#')
  {
    var parts := Text.Split(env, '#');
    if |parts| < 2 then
      assert Text.Join(parts, "#") == parts[0];
      Fail(IndexOutOfRange)
    else
      var tail := Text.Join(parts[1..], "#");
      assert env == parts[0] + "#" + tail;
      assert |parts[1..]| == 1 ==> tail == parts[1];
      assert |parts[1..]| > 1 ==> tail == parts[1] + "#" + Text.Join(parts[2..], "#");
      assert env[..|parts[0]|] == parts[0];
      Ok((parts[0], parts[1]))
  }

  /** One turn of the dispatch loop: decode the envelope, look the name up in
      the user's own directory (not in any room), and deliver the body. An
      unknown name is only logged before the nil connection is used, so the
      sender hears nothing and the server process stops. */
  function Dispatch(dir: Directory, env: string): (r: Result<Delivery, Panic>)
    ensures '#' !in env ==> r == Fail(IndexOutOfRange)
    ensures DecodeEnvelope(env).Ok? ==>
              var (name, body) := DecodeEnvelope(env).value;
              && (name !in dir.entries <==> r == Fail(NilDereference))
              && (name in dir.entries ==> r == Ok(Delivery(dir.entries[name], body)))
  {
    match DecodeEnvelope(env)
    case Fail(p) => Fail(p)
    case Ok((name, body)) =>
      match SafeUserMap.GetUser(dir, name)
      case None => Fail(NilDereference)
      case Some(target) => Ok(Delivery(target, body))
  }

  /** The dispatch loop over a mailbox, oldest envelope first: either every
      envelope is delivered, in mailbox order, or the server stops at the first
      envelope that panics, after delivering all before it. */
  function DrainMailbox(dir: Directory, mailbox: seq<string>): (r: Result<seq<Delivery>, Panic>)
    ensures r.Ok? ==>
              && |r.value| == |mailbox|
              && forall i :: 0 <= i < |mailbox| ==> Dispatch(dir, mailbox[i]) == Ok(r.value[i])
    ensures r.Fail? ==>
              exists k :: 0 <= k < |mailbox|
                && Dispatch(dir, mailbox[k]) == Fail(r.error)
                && forall i :: 0 <= i < k ==> Dispatch(dir, mailbox[i]).Ok?
    decreases |mailbox|
  {
    if |mailbox| == 0 then Ok([])
    else
      match Dispatch(dir, mailbox[0])
      case Fail(p) => Fail(p)
      case Ok(first) =>
        match DrainMailbox(dir, mailbox[1..])
        case Fail(p) =>
          PanicShifts(dir, mailbox, p);
          Fail(p)
        case Ok(rest) =>
          DeliveriesShift(dir, mailbox, first, rest);
          Ok([first] + rest)
  }

  /** A panic in the tail of a mailbox whose head dispatches cleanly is a
      panic in the whole mailbox, after the same clean prefix. */
  lemma PanicShifts(dir: Directory, mailbox: seq<string>, p: Panic)
    requires |mailbox| > 0 && Dispatch(dir, mailbox[0]).Ok?
    requires exists k :: 0 <= k < |mailbox[1..]|
               && Dispatch(dir, mailbox[1..][k]) == Fail(p)
               && forall i :: 0 <= i < k ==> Dispatch(dir, mailbox[1..][i]).Ok?
    ensures exists k :: 0 <= k < |mailbox|
              && Dispatch(dir, mailbox[k]) == Fail(p)
              && forall i :: 0 <= i < k ==> Dispatch(dir, mailbox[i]).Ok?
  {
    var k :| 0 <= k < |mailbox[1..]|
             && Dispatch(dir, mailbox[1..][k]) == Fail(p)
             && forall i :: 0 <= i < k ==> Dispatch(dir, mailbox[1..][i]).Ok?;
    assert Dispatch(dir, mailbox[k + 1]) == Fail(p);
    forall i | 0 <= i < k + 1
      ensures Dispatch(dir, mailbox[i]).Ok?
    {
      if i > 0 {
        assert mailbox[i] == mailbox[1..][i - 1];
      }
    }
  }

  /** Deliveries for the head of a mailbox followed by those for its tail are
      the deliveries for the whole mailbox, in order. */
  lemma DeliveriesShift(dir: Directory, mailbox: seq<string>, first: Delivery, rest: seq<Delivery>)
    requires |mailbox| > 0 && Dispatch(dir, mailbox[0]) == Ok(first)
    requires |rest| == |mailbox[1..]|
    requires forall i :: 0 <= i < |mailbox[1..]| ==> Dispatch(dir, mailbox[1..][i]) == Ok(rest[i])
    ensures |[first] + rest| == |mailbox|
    ensures forall i :: 0 <= i < |mailbox| ==> Dispatch(dir, mailbox[i]) == Ok(([first] + rest)[i])
  {
    forall i | 0 <= i < |mailbox|
      ensures Dispatch(dir, mailbox[i]) == Ok(([first] + rest)[i])
    {
      if i > 0 {
        assert mailbox[i] == mailbox[1..][i - 1];
      }
    }
  }

  /** `PrivateMsgHandler`: the envelope joins the back of the mailbox. */
  function PrivateMsgHandler(mailbox: seq<string>, env: string): (r: seq<string>)
    ensures |r| == |mailbox| + 1 && r[..|mailbox|] == mailbox && r[|mailbox|] == env
  {
    mailbox + [env]
  }

  /** The mailbox is first in, first out through the dispatch loop: an
      envelope queued behind a mailbox that drains cleanly is delivered last,
      after every earlier delivery in order; if it panics, the loop gets
      through the earlier ones and fails on it. */
  lemma MailboxFifo(dir: Directory, mailbox: seq<string>, env: string)
    requires DrainMailbox(dir, mailbox).Ok?
    ensures Dispatch(dir, env).Ok? ==>
              DrainMailbox(dir, PrivateMsgHandler(mailbox, env))
                == Ok(DrainMailbox(dir, mailbox).value + [Dispatch(dir, env).value])
    ensures Dispatch(dir, env).Fail? ==>
              DrainMailbox(dir, PrivateMsgHandler(mailbox, env)) == Fail(Dispatch(dir, env).error)
  {
    var queued := PrivateMsgHandler(mailbox, env);
    var before := DrainMailbox(dir, mailbox).value;
    assert forall i :: 0 <= i < |mailbox| ==> queued[i] == mailbox[i];
    var r := DrainMailbox(dir, queued);
    if r.Fail? {
      var k :| 0 <= k < |queued| && Dispatch(dir, queued[k]) == Fail(r.error)
               && forall i :: 0 <= i < k ==> Dispatch(dir, queued[i]).Ok?;
      assert !(k < |mailbox|);
      assert Dispatch(dir, env) == Fail(r.error);
    } else {
      assert Dispatch(dir, queued[|mailbox|]) == Ok(r.value[|mailbox|]);
      var after := before + [Dispatch(dir, env).value];
      assert forall i :: 0 <= i < |queued| ==> r.value[i] == after[i] by {
        forall i | 0 <= i < |queued|
          ensures r.value[i] == after[i]
        {
          if i < |mailbox| {
            assert Dispatch(dir, mailbox[i]) == Ok(before[i]);
          }
        }
      }
      assert r.value == after;
    }
  }

  /** Extra `#` characters lose text: only the first body piece is delivered. */
  lemma DecodeDropsAfterSecondHash(name: string, body: string, rest: string)
    requires '#' !in name && '#' !in body
    ensures DecodeEnvelope(name + "#" + body + "#" + rest) == Ok((name, body))
  {
    Text.SplitAtFirst(name, '#', body + "#" + rest);
    Text.SplitAtFirst(body, '#', rest);
    assert name + "#" + body + "#" + rest == name + ['#'] + (body + ['#'] + rest);
  }
}
